=== FILE: README.md ===
# product-sync in Dafny

A model of the product catalog service of product-sync. The service copies product entries from
a Contentful space into a `products` table and serves that table. The model covers:

- **the sync engine** (`ContentfulService`): one fetch of the space's entries, the mapping of each
  entry to product columns, the match-or-create upsert against the table, and the tally
  `{created, updated, errors}` of a run;
- **the scheduler** (`ScheduleService`): the hourly tick, which swallows a failed run, and the
  manual trigger, which returns the run's result or failure;
- **the catalog operations** (`ProductsService`): the filtered, sorted, paginated listing, lookup
  by id, soft delete and restore;
- **the listing query** (`ProductQueryDto`): defaults, minimums and the upper-casing of
  `sortOrder`;
- **the `Product` record**: its nullable and required columns and its two unique keys.

The table is an immutable `Store`: a map from id to `Product` plus the next id to hand out. A
generated uuid is modelled as a counter. Every operation is a pure function that takes a store
and returns a new one, or an error in a `Result`. `save` is partial. It fails with an
out-of-range error when `stock` does not fit `int4` or `price` does not fit `decimal(10,2)`. It
fails with a NOT NULL violation when a new row lacks a required column. It fails with a unique
violation when another row, soft-deleted or not, already has the `contentfulId` or `sku`. Timestamps are opaque integers, and
each run receives its "now" as a parameter. Delete and restore also set `updatedAt`, as the
ORM's soft-delete and restore updates do. The HTTP response of Contentful is a parameter too:
`Unreachable`, or the entries of the space.

Files, one module each: `wrappers.dfy` (Option/Result), `text.dfy` (lower/upper case, substring,
string order), `catalog.dfy` (the entity and the repository operations), `contentful.dfy` (the
sync engine), `sync_properties.dfy` (properties relating several upserts or both
classifications), `schedule.dfy`, `query.dfy` and `products.dfy`.

Points where the code is easy to misread:

- The code tells created from updated by a second lookup after the save, not by the branch the
  upsert took (see Findings). The scheduler and the manual trigger run this code as written.
- A missing required field is not checked by the mapper. On the create path it reaches the
  database, and the NOT NULL violation there is counted as an error. On the update path the
  undefined property is assigned over the loaded product, TypeORM leaves it out of the UPDATE,
  and the stored value stays: the entry is counted as updated
  (`IncompleteEntryKeepsStoredColumn`).
- When an entry's `sys.id` names one row and its `sku` another, no conflict error is raised. The
  lookup returns one of the two rows, and the save then breaks a unique key and is counted as an
  error (`ConflictingMatchesFail`).
- The fetch is a single request with `limit: 1000`. There is no paging loop.

## Model

| member | source | states |
|---|---|---|
| `Catalog.FirstMissingColumn` | src/entities/product.entity.ts:26-60 | reports no column exactly when sku, name, brand, model, category, color and stock all have values |
| `Catalog.Materialize` | src/entities/product.entity.ts:17-84 | a row is produced exactly when every NOT NULL column is present and price and stock fit decimal(10,2) and int4; a value that does not fit is an out-of-range error, otherwise a missing column is a NOT NULL violation; the row carries the given columns with price and currency as nullable |
| `Catalog.FillFrom` | src/services/contentful.service.ts:115-118 | the columns an UPDATE writes are always complete: the given ones, and the stored value where the data leaves a column undefined; complete data is written as given |
| `Catalog.KeyClash` | src/entities/product.entity.ts:13-28 | no violation exactly when no other row, soft-deleted ones included, has the same contentfulId or sku |
| `Catalog.Insert` | src/services/contentful.service.ts:121-122 | saving a new entity succeeds exactly when the columns are complete, fit their types and both keys are free; the new row gets a fresh id, createdAt = updatedAt = now, is active, and the table stays valid |
| `Catalog.Update` | src/services/contentful.service.ts:115-118 | saving a loaded entity with the data assigned over it succeeds exactly when the given values fit their types and no other row has its keys; a column the data leaves undefined keeps the stored value; id, createdAt and deletedAt are kept, updatedAt becomes now |
| `Catalog.FindOne` | src/entities/product.entity.ts:71-72 | findOne returns only a non-deleted row satisfying the condition, and returns nothing exactly when no non-deleted row satisfies it |
| `Contentful.FetchAllProducts` | src/services/contentful.service.ts:30-48 | an unreachable source fails with 'Failed to fetch products from Contentful'; otherwise the result is the first min(n, 1000) entries, unchanged and in order |
| `Contentful.PriceOrNull` | src/services/contentful.service.ts:99 | a price is kept exactly when it is present and non-zero |
| `Contentful.CurrencyOrNull` | src/services/contentful.service.ts:100 | a currency is kept exactly when it is present and non-empty |
| `Contentful.ToProductData` | src/services/contentful.service.ts:91-105 | contentfulId is sys.id; sku, name, brand, model, category, color and stock are copied verbatim; price and currency are the entry's own values, or null when falsy; the contentful dates are copied and lastSyncAt is now; the data is complete exactly when the entry has every required field, and fits the columns exactly when the entry's price and stock do |
| `Contentful.FindExisting` | src/services/contentful.service.ts:107-113 | the lookup finds some non-deleted product whose contentfulId is sys.id or whose sku is the entry's sku, and finds nothing exactly when no such product exists |
| `Contentful.FindByContentfulId` | src/services/contentful.service.ts:61-63 | finds a non-deleted product with the given contentfulId, nothing exactly when there is none |
| `Contentful.UpsertProduct` | src/services/contentful.service.ts:90-124 | with no active match, the upsert creates a row and succeeds exactly when the entry is complete, fits the columns and both keys are free; with a match, it overwrites the matched row in place, keeping its id and createdAt and the stored value of any column the entry leaves out, and succeeds exactly when the entry fits the columns and no other row holds the resulting keys |
| `Contentful.SyncEntry` | src/services/contentful.service.ts:57-76 | each entry raises exactly one of created, updated or errors by one; an error leaves the table unchanged; an entry whose price or stock does not fit, or an incomplete entry with no active match, is counted as an error; no existing row is lost or has its createdAt or deletedAt changed |
| `Contentful.SyncEntries` | src/services/contentful.service.ts:56-77 | the loop counts every entry exactly once, never lowers a counter, and keeps every existing row; as written it never raises created; with pre-write classification created equals the number of rows added |
| `Contentful.Sync` | src/services/contentful.service.ts:50-88 | a run fails exactly when the fetch fails, with the fetch's error and no counts or table; otherwise the table stays valid |
| `Contentful.SyncRunsLoopOverFirstPage` | src/services/contentful.service.ts:51-56 | with a reachable source the run is the loop over the fetched page, with counters starting at zero |
| `Contentful.SyncCountsEveryFetchedEntry` | src/services/contentful.service.ts:51-77 | after a successful run, created + updated + errors equals the number of fetched entries |
| `Contentful.SyncKeepsExistingRows` | src/services/contentful.service.ts:115-123 | a run never removes a product and never changes a product's createdAt or deletedAt |
| `Contentful.SyncProducts` | src/services/contentful.service.ts:50-88 | `syncProducts` as written, with classification by a contentfulId lookup after the save; fails exactly when the fetch fails |
| `Contentful.AsWrittenNeverCountsCreated` | src/services/contentful.service.ts:58-69 | as written, a successful run always reports created = 0 |
| `Contentful.SyncProductsCorrected` | src/services/contentful.service.ts:50-88 | `syncProducts` with created counted when the upsert inserted, as the comment at line 60 intends; fails exactly when the fetch fails |
| `Contentful.CreatedCountsInsertedRows` | src/services/contentful.service.ts:60-69 | with the corrected classification, created equals the number of rows the run added |
| `SyncProperties.SkuFallbackRewritesContentfulId` | src/services/contentful.service.ts:108-118 | an entry with an unused sys.id whose sku belongs to an active product updates that product in place, keeping its id and createdAt, rewriting its contentfulId, and adding no row |
| `SyncProperties.ConflictingMatchesFail` | src/services/contentful.service.ts:108-118 | when sys.id names one row and the sku another, the upsert fails whichever row the lookup returns |
| `SyncProperties.SoftDeletedRowBlocksEntry` | src/entities/product.entity.ts:23-28 | an entry sharing either key with a soft-deleted row always fails to save, so the sync neither revives nor duplicates deleted products |
| `SyncProperties.ResyncUpdatesSameRow` | src/services/contentful.service.ts:107-118 | after a successful upsert, the entry's lookup finds exactly the row just saved, and syncing the entry again succeeds on that row, keeping its keys and createdAt and adding no row |
| `SyncProperties.IncompleteEntryKeepsStoredColumn` | src/services/contentful.service.ts:58-69 | an entry without a name that matches an active product updates it in place, keeps the stored name, and is counted as updated, not as an error, by the code as written and by the corrected classification alike |
| `SyncProperties.FailedUpsertCountsError` | src/services/contentful.service.ts:57-76 | whichever classification is used, a failed upsert is caught, counted as one error, and leaves the table as it was |
| `SyncProperties.SavedUpsertIsKept` | src/services/contentful.service.ts:57-69 | whichever classification is used, a successful upsert's table is kept and the entry is counted once as created or updated |
| `SyncProperties.EntryClassificationOnlySplitsCounts` | src/services/contentful.service.ts:58-69 | for one entry, both classifications leave the same table and the same errors, and count the same number of successes |
| `SyncProperties.ClassificationOnlySplitsCounts` | src/services/contentful.service.ts:58-69 | the post-write and pre-write classifications of the loop produce the same table and the same errors, and split the same number of successes |
| `SyncProperties.AsWrittenStoresLikeCorrected` | src/services/contentful.service.ts:58-69 | the as-written and corrected runs agree on success, final table and errors; the as-written updated count is the corrected created + updated |
| `SyncProperties.FirstSyncOfNewEntryMiscounted` | src/services/contentful.service.ts:58-69 | syncing one complete entry into an empty table inserts one row; as written it reports {0 created, 1 updated, 0 errors}, corrected {1, 0, 0} |
| `Schedule.HandleProductSync` | src/services/schedule.service.ts:11-24 | a tick runs `syncProducts` as written once and returns no counts and no error; on success the table is the run's and the counts are logged; on failure the table is unchanged and 'Scheduled product sync failed:' is logged |
| `Schedule.TickNeverLogsCreated` | src/services/schedule.service.ts:16-20 | the counts a tick logs never include a created product |
| `Schedule.TriggerManualSync` | src/services/schedule.service.ts:27-30 | the manual trigger returns exactly the result of `syncProducts` as written, and fails exactly when the source is unreachable |
| `Schedule.TickAgreesWithManualTrigger` | src/services/schedule.service.ts:11-30 | both callers share one run: the tick leaves the table the manual run returns, or the table untouched where the manual run fails |
| `Schedule.RunTicks` | src/services/schedule.service.ts:11-24 | successive ticks keep the table valid, and a run of failed ticks leaves it exactly as it was |
| `Schedule.OnlyLastTickReachable` | src/services/schedule.service.ts:21-23 | a failed tick does not stop the schedule: after any number of failed ticks, the next tick leaves the table it would leave as the first |
| `Query.Validate` | src/dto/product-query.dto.ts:5-75 | a query validates exactly when page and limit are absent or numbers >= 1 and minPrice/maxPrice are absent or numbers; failing properties are reported, page first; defaults are page 1, limit 5, sortBy 'createdAt', sortOrder 'DESC'; a given sortOrder is upper-cased; a valid query has page and limit >= 1 |
| `Query.EmptyQueryDefaults` | src/dto/product-query.dto.ts:6-74 | as the DTO class defines it, an empty query validates to page 1, limit 5, sortBy 'createdAt', sortOrder 'DESC' and no filters |
| `Query.PageBelowOneRejected` | src/dto/product-query.dto.ts:6-11 | a page below 1 is rejected, with page as the first reported property |
| `Query.LimitAboveDocumentedMaxAccepted` | src/dto/product-query.dto.ts:13-23 | a limit above the documented maximum of 5 still validates and is kept |
| `Query.SortOrderOnlyUppercased` | src/dto/product-query.dto.ts:66-74 | any sortOrder text validates, and texts differing only in letter case validate to the same query |
| `Text.Upper` | src/dto/product-query.dto.ts:73 | `toUpperCase` keeps the length and raises each lower-case letter |
| `Text.Lower` | src/services/products.service.ts:121 | `LOWER` keeps the length and lowers each upper-case letter |
| `Text.Contains` | src/services/products.service.ts:120-124 | `LIKE '%pat%'` holds exactly when the pattern occurs at some position of the text |
| `Products.ActiveRows` | src/services/products.service.ts:101-105 | the listing starts from exactly the stored rows whose deletedAt is null, each once |
| `Products.ApplyFilters` | src/services/products.service.ts:107-151 | a row is kept exactly when it passes every filter: case-insensitive substring on name, category, brand and color when non-empty, inclusive price bounds when given, a null price failing any bound |
| `Products.SortFieldOf` | src/services/products.service.ts:158-166 | a whitelisted sortBy selects that field; anything else falls back to createdAt |
| `Products.SortFieldRoundTrip` | src/services/products.service.ts:158-166 | every sortable field is whitelisted and selected by its own name |
| `Products.ParseDirection` | src/services/products.service.ts:168 | orderBy accepts exactly 'ASC' and 'DESC' and fails on anything else |
| `Products.InsertInOrder` | src/services/products.service.ts:168 | placing a row into a sorted listing keeps it sorted and adds exactly that row |
| `Products.SortRows` | src/services/products.service.ts:153-169 | the result is sorted by the field in the order and is a permutation of the input; a null price sorts last ascending and first descending, PostgreSQL's default for NULL |
| `Products.SkipTake` | src/services/products.service.ts:55 | at most limit rows, taken in order right after the first skip rows, and as many as remain up to limit |
| `Products.Window` | src/services/products.service.ts:49-55 | page p holds at most limit rows, the ones at positions (p-1)*limit onward, and is short only at the end of the listing |
| `Products.FirstPagesArePrefix` | src/services/products.service.ts:49-55 | pages 1..n laid end to end are exactly the first n*limit rows of the listing, nothing skipped or repeated |
| `Products.Listing` | src/services/products.service.ts:33-46 | the filtered, sorted rows are exactly the active stored rows that match, as many as the matching ids, in the requested order |
| `Products.FindAll` | src/services/products.service.ts:17-62 | fails exactly when sortOrder is not ASC/DESC; otherwise echoes page and limit, total counts every active match before paging, and the page is exactly the window of the sorted matching rows starting at (page-1)*limit: at most limit rows, short only at the end, active, matching and sorted |
| `Products.FindById` | src/services/products.service.ts:64-72 | returns the product exactly when a non-deleted row has the id, NotFound otherwise |
| `Products.SetDeletedAt` | src/services/products.service.ts:77-83 | the soft-delete/restore UPDATE writes deletedAt and updatedAt of that one row and changes nothing else |
| `Products.Delete` | src/services/products.service.ts:74-80 | succeeds exactly when a non-deleted row has the id, marking only that row deleted at now; NotFound otherwise |
| `Products.FindWithDeleted` | src/services/products.service.ts:85-88 | finds the row with the id whether deleted or not |
| `Products.Restore` | src/services/products.service.ts:82-99 | succeeds exactly when some row, deleted or not, has the id, clearing its deletedAt and returning it; other rows unchanged; NotFound otherwise |
| `Products.RestoreUndoesDelete` | src/services/products.service.ts:74-99 | restoring right after deleting brings back the same record, apart from updatedAt, and it is found again |
| `Products.DeletedIsHidden` | src/services/products.service.ts:64-80 | after a delete, findById and a second delete raise NotFound, and no listing shows the product |

## Left out

- The HTTP request to Contentful, `ConfigService`, the logger's output channel and `new Date()`. The response is a parameter, the clock is the `now` argument, and the scheduler's log lines are returned as data.
- Cron timing and overlapping runs: the model runs one sync per tick, sequentially.
- Reports, authentication, controllers, modules, `main.ts` and the app service, which are not part of this model.
- `src/dto/product-response.dto.ts` is not part of this model. The page response is modelled with the four fields the unit test reads: data, total, page and limit.
- The controller's `ValidationPipe` wiring. The pipe is used without `transform`, so the running service receives the raw query object: the DTO's defaults and the upper-casing of `sortOrder` never reach `findAll` (an empty query gives a `NaN` skip and an ascending order). `FindAll` is modelled on the query as the DTO class defines it, with defaults applied and validation passed.
- Contentful.FindExisting: an entry without a sku matches on `contentfulId` only. The ORM's handling of an undefined value in a `where` clause is not modelled.
- Products.FindById, Products.Delete, Products.Restore: ids are naturals. The `id` column is a uuid, and a string that is not a uuid makes PostgreSQL raise an error rather than yield NotFound; that error is not modelled.
- Catalog.Materialize: prices are integers, so the rounding of a fractional price to two decimals, and an overflow it may cause, are not modelled.
- Catalog.FindOne returns the lowest matching id. The database returns some matching row, and every contract states only "some non-deleted match".
- Numbers: prices, bounds, page and limit are integers. Decimal prices, fractional pages and the text-to-number conversion are abstracted; `Numeric` only distinguishes a number from NaN.
- Repeated query keys, which arrive as arrays and fail `@IsString`: text parameters are plain strings.
- Text.Upper, Text.Lower, Text.Contains: `LOWER`, `toUpperCase` and `LIKE` act on ASCII letters only. `%` and `_` inside a filter value are not treated as wildcards.
- Products.SortRows: text columns are ordered by character code, not by the database collation.
- Products.FindAll: rows with equal sort keys come back in one fixed order, the one the model's insertion sort gives. The database leaves that order unspecified; only sortedness and the set of rows are what the source promises.
- The fetch's `limit: 1000` is kept: entries beyond the first thousand are never synced.

## Findings

| source | as written | input that shows it | evidently intended | confidence | as-written member | corrected member |
|---|---|---|---|---|---|---|
| src/services/contentful.service.ts:58-69 | after the upsert, the entry's `contentfulId` is looked up and the entry counts as updated when found; the row was just saved, so it is always found | one complete entry synced into an empty table: one row is inserted, yet the run reports 0 created, 1 updated | count created when the upsert inserted a new row, updated when it overwrote one | high (not executed) | `SyncProperties.FirstSyncOfNewEntryMiscounted` | `Contentful.CreatedCountsInsertedRows` |

The scheduler and the manual trigger run `Contentful.SyncProducts` as written. Both versions
leave the same table and count the same errors (`SyncProperties.AsWrittenStoresLikeCorrected`).

=== FILE: catalog.dfy ===
/** The `products` table: the `Product` record, its unique keys, and the
    repository operations the services use (`findOne`, `save` as insert or as
    update). Ids are handed out by a counter standing for the generated uuid. */
module Catalog {
  import opened Wrappers

  type Id = nat

  /** An instant, kept opaque: only equality and order are used. */
  type Timestamp = int

  /** A stored product. `price` and `currency` are the only nullable business
      columns; `deletedAt` is null for an active row and set once it is
      soft-deleted. */
  datatype Product = Product(
    id: Id,
    contentfulId: string,
    sku: string,
    name: string,
    brand: string,
    model: string,
    category: string,
    color: string,
    price: Option<int>,
    currency: Option<string>,
    stock: int,
    createdAt: Timestamp,
    updatedAt: Timestamp,
    deletedAt: Option<Timestamp>,
    contentfulCreatedAt: Timestamp,
    contentfulUpdatedAt: Timestamp,
    lastSyncAt: Timestamp)
  {
    predicate IsActive() {
      deletedAt.None?
    }

    /** The stored values fit their column types. */
    predicate ColumnsInRange() {
      IsInt4(stock) && (price.None? || FitsPrice(price.value))
    }
  }

  const Int4Min: int := -0x8000_0000
  const Int4Max: int := 0x7FFF_FFFF
  /** `decimal(10, 2)` keeps eight digits before the decimal point. */
  const PriceLimit: int := 100_000_000

  /** A value of the `int4` column `stock`. */
  predicate IsInt4(n: int) {
    Int4Min <= n <= Int4Max
  }

  /** A whole value of the `decimal(10, 2)` column `price`. */
  predicate FitsPrice(n: int) {
    -PriceLimit < n < PriceLimit
  }

  /** The business columns an application hands to `save`; a required column
      may still be missing (`undefined`) at this point. */
  datatype ProductData = ProductData(
    contentfulId: string,
    sku: Option<string>,
    name: Option<string>,
    brand: Option<string>,
    model: Option<string>,
    category: Option<string>,
    color: Option<string>,
    price: Option<int>,
    currency: Option<string>,
    stock: Option<int>,
    contentfulCreatedAt: Timestamp,
    contentfulUpdatedAt: Timestamp,
    lastSyncAt: Timestamp)
  {
    /** Every NOT NULL business column has a value. */
    predicate IsComplete() {
      sku.Some? && name.Some? && brand.Some? && model.Some? && category.Some?
      && color.Some? && stock.Some?
    }

    /** Every numeric value given fits its column. */
    predicate InRange() {
      (stock.None? || IsInt4(stock.value)) && (price.None? || FitsPrice(price.value))
    }
  }

  /** `p` holds exactly the business columns of `d`. */
  predicate Carries(p: Product, d: ProductData) {
    && p.contentfulId == d.contentfulId
    && d.sku == Some(p.sku)
    && d.name == Some(p.name)
    && d.brand == Some(p.brand)
    && d.model == Some(p.model)
    && d.category == Some(p.category)
    && d.color == Some(p.color)
    && p.price == d.price
    && p.currency == d.currency
    && d.stock == Some(p.stock)
    && p.contentfulCreatedAt == d.contentfulCreatedAt
    && p.contentfulUpdatedAt == d.contentfulUpdatedAt
    && p.lastSyncAt == d.lastSyncAt
  }

  /** The table's rows by primary key, and the id the generator hands out next. */
  datatype Store = Store(rows: map<Id, Product>, nextId: Id)

  predicate IdsBelowNext(s: Store) {
    forall id :: id in s.rows ==> id < s.nextId
  }

  /** The two unique indexes: no two rows, soft-deleted ones included, share a
      `contentfulId` or a `sku`. */
  predicate UniqueKeys(rows: map<Id, Product>) {
    forall a, b :: a in rows && b in rows && a != b ==>
      rows[a].contentfulId != rows[b].contentfulId && rows[a].sku != rows[b].sku
  }

  predicate Valid(s: Store) {
    && IdsBelowNext(s)
    && (forall id :: id in s.rows ==> s.rows[id].id == id && s.rows[id].ColumnsInRange())
    && UniqueKeys(s.rows)
  }

  datatype SaveError =
    | NotNullViolation(column: string)
    | UniqueViolation(column: string)
    | OutOfRange(column: string)

  /** Some row other than `except` already has this `contentfulId`. */
  predicate ContentfulIdTaken(rows: map<Id, Product>, contentfulId: string, except: Option<Id>) {
    exists id :: id in rows && Some(id) != except && rows[id].contentfulId == contentfulId
  }

  /** Some row other than `except` already has this `sku`. */
  predicate SkuTaken(rows: map<Id, Product>, sku: string, except: Option<Id>) {
    exists id :: id in rows && Some(id) != except && rows[id].sku == sku
  }

  /** The first NOT NULL column, in declaration order, that `d` leaves empty. */
  function FirstMissingColumn(d: ProductData): (r: Option<string>)
    ensures r.None? <==> d.IsComplete()
  {
    if d.sku.None? then Some("sku")
    else if d.name.None? then Some("name")
    else if d.brand.None? then Some("brand")
    else if d.model.None? then Some("model")
    else if d.category.None? then Some("category")
    else if d.color.None? then Some("color")
    else if d.stock.None? then Some("stock")
    else None
  }

  /** The first numeric column, in declaration order, whose value `d` gives
      does not fit. */
  function FirstOutOfRangeColumn(d: ProductData): (r: Option<string>)
    ensures r.None? <==> d.InRange()
  {
    if d.price.Some? && !FitsPrice(d.price.value) then Some("price")
    else if d.stock.Some? && !IsInt4(d.stock.value) then Some("stock")
    else None
  }

  /** The row `save` would write for `d`, or the error the database raises: a
      value that does not fit its column is refused while the row is built, before
      the NOT NULL constraints are checked. */
  function Materialize(d: ProductData, id: Id, createdAt: Timestamp, updatedAt: Timestamp,
                       deletedAt: Option<Timestamp>): (r: Result<Product, SaveError>)
    ensures r.Success? <==> d.IsComplete() && d.InRange()
    ensures !d.InRange() ==> r.Failure? && r.error.OutOfRange?
    ensures d.InRange() && !d.IsComplete() ==> r.Failure? && r.error.NotNullViolation?
    ensures r.Success? ==>
      && r.value.ColumnsInRange()
      && Carries(r.value, d)
      && r.value.id == id
      && r.value.createdAt == createdAt
      && r.value.updatedAt == updatedAt
      && r.value.deletedAt == deletedAt
  {
    if FirstOutOfRangeColumn(d).Some? then Failure(OutOfRange(FirstOutOfRangeColumn(d).value))
    else match FirstMissingColumn(d)
    case Some(column) => Failure(NotNullViolation(column))
    case None =>
      Success(Product(id, d.contentfulId, d.sku.value, d.name.value, d.brand.value,
                      d.model.value, d.category.value, d.color.value, d.price, d.currency,
                      d.stock.value, createdAt, updatedAt, deletedAt,
                      d.contentfulCreatedAt, d.contentfulUpdatedAt, d.lastSyncAt))
  }

  /** The unique index that writing `p` over row `except` would violate, if any. */
  function KeyClash(rows: map<Id, Product>, p: Product, except: Option<Id>): (r: Option<SaveError>)
    ensures r.None? <==> !ContentfulIdTaken(rows, p.contentfulId, except) && !SkuTaken(rows, p.sku, except)
    ensures r.Some? ==> r.value.UniqueViolation?
  {
    if ContentfulIdTaken(rows, p.contentfulId, except) then Some(UniqueViolation("contentfulId"))
    else if SkuTaken(rows, p.sku, except) then Some(UniqueViolation("sku"))
    else None
  }

  /** `save` of a new entity: INSERT with a fresh id, `createdAt` and `updatedAt`
      set to `now`, not deleted. */
  function Insert(s: Store, d: ProductData, now: Timestamp): (r: Result<(Store, Product), SaveError>)
    requires Valid(s)
    ensures r.Success? <==>
      d.IsComplete() && d.InRange() && !ContentfulIdTaken(s.rows, d.contentfulId, None)
      && !SkuTaken(s.rows, d.sku.value, None)
    ensures r.Success? ==>
      var (s', p) := r.value;
      && p.id !in s.rows
      && s'.rows == s.rows[p.id := p]
      && Carries(p, d)
      && p.createdAt == now && p.updatedAt == now && p.IsActive()
      && Valid(s')
  {
    var p :- Materialize(d, s.nextId, now, now, None);
    match KeyClash(s.rows, p, None)
    case Some(e) => Failure(e)
    case None => Success((Store(s.rows[p.id := p], s.nextId + 1), p))
  }

  /** The columns an UPDATE of `row` writes for `d`: TypeORM leaves a property
      that is `undefined` out of the statement, so such a column keeps the row's
      value; everything else, nulls included, is written as given. */
  function FillFrom(d: ProductData, row: Product): (f: ProductData)
    ensures f.IsComplete()
    ensures d.IsComplete() ==> f == d
    ensures f.contentfulId == d.contentfulId && f.price == d.price && f.currency == d.currency
    ensures f.contentfulCreatedAt == d.contentfulCreatedAt
    ensures f.contentfulUpdatedAt == d.contentfulUpdatedAt && f.lastSyncAt == d.lastSyncAt
    ensures d.sku.Some? ==> f.sku == d.sku
    ensures d.name.Some? ==> f.name == d.name
    ensures d.brand.Some? ==> f.brand == d.brand
    ensures d.model.Some? ==> f.model == d.model
    ensures d.category.Some? ==> f.category == d.category
    ensures d.color.Some? ==> f.color == d.color
    ensures d.stock.Some? ==> f.stock == d.stock
    ensures d.sku.None? ==> f.sku == Some(row.sku)
    ensures d.name.None? ==> f.name == Some(row.name)
    ensures d.brand.None? ==> f.brand == Some(row.brand)
    ensures d.model.None? ==> f.model == Some(row.model)
    ensures d.category.None? ==> f.category == Some(row.category)
    ensures d.color.None? ==> f.color == Some(row.color)
    ensures d.stock.None? ==> f.stock == Some(row.stock)
    ensures row.ColumnsInRange() ==> (f.InRange() <==> d.InRange())
  {
    d.(sku := Some(d.sku.GetOr(row.sku)),
       name := Some(d.name.GetOr(row.name)),
       brand := Some(d.brand.GetOr(row.brand)),
       model := Some(d.model.GetOr(row.model)),
       category := Some(d.category.GetOr(row.category)),
       color := Some(d.color.GetOr(row.color)),
       stock := Some(d.stock.GetOr(row.stock)))
  }

  /** `save` of an entity loaded from row `id` with the columns of `d` assigned
      over it: UPDATE of that row; the id, `createdAt` and `deletedAt` stay,
      `updatedAt` becomes `now`, and a column `d` leaves undefined keeps its value. */
  function Update(s: Store, id: Id, d: ProductData, now: Timestamp): (r: Result<(Store, Product), SaveError>)
    requires Valid(s) && id in s.rows
    ensures r.Success? <==>
      d.InRange() && !ContentfulIdTaken(s.rows, d.contentfulId, Some(id))
      && !SkuTaken(s.rows, d.sku.GetOr(s.rows[id].sku), Some(id))
    ensures !d.InRange() ==> r.Failure? && r.error.OutOfRange?
    ensures r.Success? ==>
      var (s', p) := r.value;
      && p.id == id
      && s'.rows == s.rows[id := p]
      && s'.nextId == s.nextId
      && Carries(p, FillFrom(d, s.rows[id]))
      && (d.IsComplete() ==> Carries(p, d))
      && p.createdAt == s.rows[id].createdAt
      && p.deletedAt == s.rows[id].deletedAt
      && p.updatedAt == now
      && Valid(s')
  {
    var row := s.rows[id];
    var p :- Materialize(FillFrom(d, row), id, row.createdAt, now, row.deletedAt);
    match KeyClash(s.rows, p, Some(id))
    case Some(e) => Failure(e)
    case None => Success((Store(s.rows[id := p], s.nextId), p))
  }

  /** `findOne({ where })` on an entity with a delete-date column: some active row
      satisfying `where`, or none. The scan returns the lowest such id. */
  function FindOne(s: Store, where: Product -> bool): (r: Option<Id>)
    requires IdsBelowNext(s)
    ensures r.Some? ==>
      r.value in s.rows && s.rows[r.value].IsActive() && where(s.rows[r.value])
    ensures r.None? <==>
      forall id :: id in s.rows && s.rows[id].IsActive() ==> !where(s.rows[id])
  {
    FindOneFrom(s, where, 0)
  }

  function FindOneFrom(s: Store, where: Product -> bool, from: Id): (r: Option<Id>)
    requires IdsBelowNext(s)
    ensures r.Some? ==>
      from <= r.value && r.value in s.rows && s.rows[r.value].IsActive() && where(s.rows[r.value])
    ensures r.None? <==>
      forall id :: from <= id && id in s.rows && s.rows[id].IsActive() ==> !where(s.rows[id])
    decreases s.nextId - from
  {
    if from >= s.nextId then None
    else if from in s.rows && s.rows[from].IsActive() && where(s.rows[from]) then Some(from)
    else FindOneFrom(s, where, from + 1)
  }
}

=== FILE: contentful.dfy ===
/** The catalog sync engine: fetch the entries of the Contentful space, map each
    one to product columns, match it against the store by `contentfulId` or
    `sku`, save it, and tally the run. */
module Contentful {
  import opened Wrappers
  import opened Catalog

  /** The `sys` block of an entry; its two dates are kept as opaque instants. */
  datatype EntrySys = EntrySys(id: string, createdAt: Timestamp, updatedAt: Timestamp)

  /** The `fields` block of an entry. Any of them may be absent from the payload. */
  datatype EntryFields = EntryFields(
    sku: Option<string>,
    name: Option<string>,
    brand: Option<string>,
    model: Option<string>,
    category: Option<string>,
    color: Option<string>,
    price: Option<int>,
    currency: Option<string>,
    stock: Option<int>)

  datatype RawEntry = RawEntry(sys: EntrySys, fields: EntryFields)

  /** The remote space as one request sees it: unreachable (transport or auth
      failure, or a response without `items`, which fails inside the same `try`
      with the same message), or its entries of the configured content type,
      in order. */
  datatype Source = Unreachable | Reachable(entries: seq<RawEntry>)

  /** The `limit` query parameter of the one entries request. */
  const FetchLimit: nat := 1000

  const FetchFailedMessage := "Failed to fetch products from Contentful"

  datatype SyncError = SyncError(message: string)

  function Min(a: nat, b: nat): nat {
    if a <= b then a else b
  }

  /** One GET of the entries endpoint with `limit: 1000` and no `skip`: the items
      of that single page, or the fetch error. */
  function FetchAllProducts(src: Source): (r: Result<seq<RawEntry>, SyncError>)
    ensures r.Failure? <==> src.Unreachable?
    ensures r.Failure? ==> r.error == SyncError(FetchFailedMessage)
    ensures r.Success? ==> |r.value| == Min(|src.entries|, FetchLimit)
    ensures r.Success? ==> r.value <= src.entries
  {
    match src
    case Unreachable => Failure(SyncError(FetchFailedMessage))
    case Reachable(entries) => Success(entries[..Min(|entries|, FetchLimit)])
  }

  /** `price || null`: an absent price and a price of 0 are both stored as null. */
  function PriceOrNull(price: Option<int>): (r: Option<int>)
    ensures r.Some? <==> price.Some? && price.value != 0
    ensures r.Some? ==> r == price
  {
    match price
    case Some(p) => if p == 0 then None else Some(p)
    case None => None
  }

  /** `currency || null`: an absent and an empty currency are both stored as null. */
  function CurrencyOrNull(currency: Option<string>): (r: Option<string>)
    ensures r.Some? <==> currency.Some? && currency.value != ""
    ensures r.Some? ==> r == currency
  {
    match currency
    case Some(c) => if c == "" then None else Some(c)
    case None => None
  }

  /** The entry supplies every column the table declares NOT NULL: the entry-side
      form of `ProductData.IsComplete`, the two linked by `ToProductData`. */
  predicate HasRequiredFields(e: RawEntry) {
    var f := e.fields;
    f.sku.Some? && f.name.Some? && f.brand.Some? && f.model.Some? && f.category.Some?
    && f.color.Some? && f.stock.Some?
  }

  /** The entry's price and stock, where given, fit their columns: the entry-side
      form of `ProductData.InRange`, the two linked by `ToProductData`. */
  predicate FieldsFit(e: RawEntry) {
    (e.fields.price.None? || FitsPrice(e.fields.price.value))
    && (e.fields.stock.None? || IsInt4(e.fields.stock.value))
  }

  /** The `productData` object built from an entry at time `now`. */
  function ToProductData(e: RawEntry, now: Timestamp): (d: ProductData)
    ensures d.contentfulId == e.sys.id
    ensures d.sku == e.fields.sku && d.name == e.fields.name && d.brand == e.fields.brand
    ensures d.model == e.fields.model && d.category == e.fields.category
    ensures d.color == e.fields.color && d.stock == e.fields.stock
    ensures d.price == PriceOrNull(e.fields.price) && d.currency == CurrencyOrNull(e.fields.currency)
    ensures d.price.Some? <==> e.fields.price.Some? && e.fields.price.value != 0
    ensures d.currency.Some? <==> e.fields.currency.Some? && e.fields.currency.value != ""
    ensures d.contentfulCreatedAt == e.sys.createdAt && d.contentfulUpdatedAt == e.sys.updatedAt
    ensures d.lastSyncAt == now
    ensures d.IsComplete() <==> HasRequiredFields(e)
    ensures d.InRange() <==> FieldsFit(e)
  {
    var f := e.fields;
    ProductData(e.sys.id, f.sku, f.name, f.brand, f.model, f.category, f.color,
                PriceOrNull(f.price), CurrencyOrNull(f.currency), f.stock,
                e.sys.createdAt, e.sys.updatedAt, now)
  }

  /** The OR condition of the upsert lookup: same `contentfulId`, or same `sku`
      (an entry without a sku matches on `contentfulId` only). */
  predicate MatchesEntry(p: Product, e: RawEntry) {
    p.contentfulId == e.sys.id || e.fields.sku == Some(p.sku)
  }

  predicate HasActiveMatch(s: Store, e: RawEntry) {
    exists id :: id in s.rows && s.rows[id].IsActive() && MatchesEntry(s.rows[id], e)
  }

  /** `findOne({ where: [{ contentfulId }, { sku }] })`. */
  function FindExisting(s: Store, e: RawEntry): (r: Option<Id>)
    requires IdsBelowNext(s)
    ensures r.Some? ==> r.value in s.rows && s.rows[r.value].IsActive() && MatchesEntry(s.rows[r.value], e)
    ensures r.None? <==> !HasActiveMatch(s, e)
  {
    FindOne(s, (p: Product) => MatchesEntry(p, e))
  }

  /** `findOne({ where: { contentfulId } })`, the lookup made after the save. */
  function FindByContentfulId(s: Store, contentfulId: string): (r: Option<Id>)
    requires IdsBelowNext(s)
    ensures r.Some? ==> r.value in s.rows && s.rows[r.value].IsActive() && s.rows[r.value].contentfulId == contentfulId
    ensures r.None? <==> forall id :: id in s.rows && s.rows[id].IsActive() ==> s.rows[id].contentfulId != contentfulId
  {
    FindOne(s, (p: Product) => p.contentfulId == contentfulId)
  }

  /** `upsertProduct`: assign the entry's columns over some active product
      matching it and save, or create a new product when none matches; the result
      is the saved row. Over a match, a column the entry leaves out keeps its
      value; a new product needs every required column. */
  function UpsertProduct(s: Store, e: RawEntry, now: Timestamp): (r: Result<(Store, Product), SaveError>)
    requires Valid(s)
    ensures !HasActiveMatch(s, e) ==>
      (r.Success? <==>
        && HasRequiredFields(e) && FieldsFit(e)
        && !ContentfulIdTaken(s.rows, e.sys.id, None)
        && !SkuTaken(s.rows, e.fields.sku.value, None))
    ensures HasActiveMatch(s, e) ==>
      var id := FindExisting(s, e).value;
      (r.Success? <==>
        && FieldsFit(e)
        && !ContentfulIdTaken(s.rows, e.sys.id, Some(id))
        && !SkuTaken(s.rows, e.fields.sku.GetOr(s.rows[id].sku), Some(id)))
    ensures r.Success? ==>
      var (s', p) := r.value;
      && Valid(s')
      && s'.rows == s.rows[p.id := p]
      && (HasRequiredFields(e) ==> Carries(p, ToProductData(e, now)))
      && p.contentfulId == e.sys.id
      && p.IsActive()
      && p.updatedAt == now
    ensures r.Success? && HasActiveMatch(s, e) ==>
      var (s', p) := r.value;
      && p.id in s.rows
      && s.rows[p.id].IsActive()
      && MatchesEntry(s.rows[p.id], e)
      && Carries(p, FillFrom(ToProductData(e, now), s.rows[p.id]))
      && p.createdAt == s.rows[p.id].createdAt
      && s'.nextId == s.nextId
    ensures r.Success? && !HasActiveMatch(s, e) ==>
      var (s', p) := r.value;
      p.id !in s.rows && p.createdAt == now
  {
    var data := ToProductData(e, now);
    match FindExisting(s, e)
    case Some(id) => Update(s, id, data, now)
    case None => Insert(s, data, now)
  }

  /** A successful upsert removes no row and keeps every existing row's
      `createdAt` and `deletedAt`. */
  lemma UpsertKeepsExistingRows(s: Store, e: RawEntry, now: Timestamp)
    requires Valid(s) && UpsertProduct(s, e, now).Success?
    ensures var s' := UpsertProduct(s, e, now).value.0;
      forall id :: id in s.rows ==>
        id in s'.rows && s'.rows[id].createdAt == s.rows[id].createdAt
        && s'.rows[id].deletedAt == s.rows[id].deletedAt
  {
    var (s', p) := UpsertProduct(s, e, now).value;
    forall id | id in s.rows
      ensures id in s'.rows && s'.rows[id].createdAt == s.rows[id].createdAt
              && s'.rows[id].deletedAt == s.rows[id].deletedAt
    {
      if id == p.id {
        assert HasActiveMatch(s, e);
      }
    }
  }

  /** Counters of one run. */
  datatype SyncStats = SyncStats(created: nat, updated: nat, errors: nat) {
    function Total(): nat {
      created + updated + errors
    }
  }

  const NoStats := SyncStats(0, 0, 0)

  /** How a successful upsert is told apart as created or updated: by looking the
      entry's `contentfulId` up after the save, as the service does, or by
      whether the upsert's own lookup found a product before the write. */
  datatype Classification = PostWriteLookup | PreWriteLookup

  /** One iteration of the loop in `syncProducts`: upsert the entry and count it
      once, as created, updated or an error. */
  function SyncEntry(how: Classification, s: Store, e: RawEntry, now: Timestamp, stats: SyncStats): (r: (Store, SyncStats))
    requires Valid(s)
    ensures Valid(r.0)
    ensures || r.1 == stats.(created := stats.created + 1)
            || r.1 == stats.(updated := stats.updated + 1)
            || r.1 == stats.(errors := stats.errors + 1)
    ensures r.1.errors != stats.errors ==> r.0 == s
    ensures !FieldsFit(e) ==> r == (s, stats.(errors := stats.errors + 1))
    ensures !HasRequiredFields(e) && !HasActiveMatch(s, e) ==> r == (s, stats.(errors := stats.errors + 1))
    ensures forall id :: id in s.rows ==>
      id in r.0.rows && r.0.rows[id].createdAt == s.rows[id].createdAt
      && r.0.rows[id].deletedAt == s.rows[id].deletedAt
    ensures how.PostWriteLookup? ==> r.1.created == stats.created
    ensures how.PreWriteLookup? ==> r.1.created - stats.created == |r.0.rows| - |s.rows|
  {
    match UpsertProduct(s, e, now)
    case Failure(_) => (s, stats.(errors := stats.errors + 1))
    case Success((s', p)) =>
      UpsertKeepsExistingRows(s, e, now);
      var existed := match how
        case PostWriteLookup =>
          assert s'.rows[p.id] == p;
          FindByContentfulId(s', e.sys.id).Some?
        case PreWriteLookup => FindExisting(s, e).Some?;
      if existed then (s', stats.(updated := stats.updated + 1))
      else (s', stats.(created := stats.created + 1))
  }

  /** The `for` loop of `syncProducts`, entries taken in the order fetched. */
  function SyncEntries(how: Classification, s: Store, entries: seq<RawEntry>, now: Timestamp, stats: SyncStats): (r: (Store, SyncStats))
    requires Valid(s)
    ensures Valid(r.0)
    ensures r.1.Total() == stats.Total() + |entries|
    ensures r.1.created >= stats.created && r.1.updated >= stats.updated && r.1.errors >= stats.errors
    ensures forall id :: id in s.rows ==>
      id in r.0.rows && r.0.rows[id].createdAt == s.rows[id].createdAt
      && r.0.rows[id].deletedAt == s.rows[id].deletedAt
    ensures how.PostWriteLookup? ==> r.1.created == stats.created
    ensures how.PreWriteLookup? ==> r.1.created - stats.created == |r.0.rows| - |s.rows|
    decreases |entries|
  {
    if |entries| == 0 then (s, stats)
    else
      var (s1, stats1) := SyncEntry(how, s, entries[0], now, stats);
      SyncEntries(how, s1, entries[1..], now, stats1)
  }

  /** A whole run: fetch, then the loop over the fetched entries with counters
      starting at zero; a fetch failure aborts the run before anything is saved. */
  function Sync(how: Classification, s: Store, src: Source, now: Timestamp): (r: Result<(Store, SyncStats), SyncError>)
    requires Valid(s)
    ensures r.Failure? <==> src.Unreachable?
    ensures r.Failure? ==> r.error == SyncError(FetchFailedMessage)
    ensures r.Success? ==> Valid(r.value.0)
  {
    var fetched := FetchAllProducts(src);
    if fetched.Failure? then Failure(fetched.error)
    else Success(SyncEntries(how, s, fetched.value, now, NoStats))
  }

  /** A reachable source runs the loop over its first page. */
  lemma SyncRunsLoopOverFirstPage(how: Classification, s: Store, src: Source, now: Timestamp)
    requires Valid(s) && src.Reachable?
    ensures FetchAllProducts(src).Success?
    ensures Sync(how, s, src, now) == Success(SyncEntries(how, s, FetchAllProducts(src).value, now, NoStats))
  {
  }

  /** A successful run counts every fetched entry exactly once. */
  lemma SyncCountsEveryFetchedEntry(how: Classification, s: Store, src: Source, now: Timestamp)
    requires Valid(s)
    ensures var r := Sync(how, s, src, now);
      r.Success? ==> r.value.1.Total() == Min(|src.entries|, FetchLimit)
  {
    if src.Reachable? {
      SyncRunsLoopOverFirstPage(how, s, src, now);
    }
  }

  /** A run never removes a product nor changes when it was created or whether
      it is soft-deleted. */
  lemma SyncKeepsExistingRows(how: Classification, s: Store, src: Source, now: Timestamp)
    requires Valid(s)
    ensures var r := Sync(how, s, src, now);
      r.Success? ==> forall id :: id in s.rows ==>
        id in r.value.0.rows
        && r.value.0.rows[id].createdAt == s.rows[id].createdAt
        && r.value.0.rows[id].deletedAt == s.rows[id].deletedAt
  {
    if src.Reachable? {
      SyncRunsLoopOverFirstPage(how, s, src, now);
    }
  }

  /** `syncProducts` as written: a successful save is counted as updated whenever
      the entry's `contentfulId` is found after the save — which, in a store that
      keeps what it saves, is every time. */
  function SyncProducts(s: Store, src: Source, now: Timestamp): (r: Result<(Store, SyncStats), SyncError>)
    requires Valid(s)
    ensures r.Failure? <==> src.Unreachable?
    ensures r.Failure? ==> r.error == SyncError(FetchFailedMessage)
    ensures r.Success? ==> Valid(r.value.0)
  {
    Sync(PostWriteLookup, s, src, now)
  }

  /** As written, no run ever reports a created product. */
  lemma AsWrittenNeverCountsCreated(s: Store, src: Source, now: Timestamp)
    requires Valid(s)
    ensures var r := SyncProducts(s, src, now);
      r.Success? ==> r.value.1.created == 0
  {
    if src.Reachable? {
      SyncRunsLoopOverFirstPage(PostWriteLookup, s, src, now);
    }
  }

  /** `syncProducts` with the classification its comment intends: an entry is
      counted as created exactly when its upsert inserted a new row. */
  function SyncProductsCorrected(s: Store, src: Source, now: Timestamp): (r: Result<(Store, SyncStats), SyncError>)
    requires Valid(s)
    ensures r.Failure? <==> src.Unreachable?
    ensures r.Failure? ==> r.error == SyncError(FetchFailedMessage)
    ensures r.Success? ==> Valid(r.value.0)
  {
    Sync(PreWriteLookup, s, src, now)
  }

  /** Corrected, the created counter is exactly the number of rows the run added. */
  lemma CreatedCountsInsertedRows(s: Store, src: Source, now: Timestamp)
    requires Valid(s)
    ensures var r := SyncProductsCorrected(s, src, now);
      r.Success? ==> r.value.1.created == |r.value.0.rows| - |s.rows|
  {
    if src.Reachable? {
      var page := FetchAllProducts(src).value;
      SyncRunsLoopOverFirstPage(PreWriteLookup, s, src, now);
      assert SyncProductsCorrected(s, src, now) == Success(SyncEntries(PreWriteLookup, s, page, now, NoStats));
      LoopCountsInsertedRows(s, page, now);
    }
  }

  lemma LoopCountsInsertedRows(s: Store, entries: seq<RawEntry>, now: Timestamp)
    requires Valid(s)
    ensures var r := SyncEntries(PreWriteLookup, s, entries, now, NoStats);
      r.1.created == |r.0.rows| - |s.rows|
  {
  }
}

=== FILE: products.dfy ===
/** The catalog read and lifecycle operations of the products service: the
    filtered, sorted and paginated listing, lookup by id, soft delete and
    restore. Every read goes through the `deletedAt IS NULL` condition except the
    lookup that follows a restore. */
module Products {
  import opened Wrappers
  import opened Catalog
  import opened Query
  import Text

  datatype ProductsError =
    | NotFound(id: Id)
      /** The query builder accepts only "ASC" and "DESC" as a sort order. */
    | InvalidSortOrder(order: string)

  /** The rows of `rs` have strictly increasing ids, so no row appears twice. */
  predicate IdsIncreasing(rs: seq<Product>) {
    forall i, j :: 0 <= i < j < |rs| ==> rs[i].id < rs[j].id
  }

  /** `p` is the stored row under its own id. */
  predicate IsStored(s: Store, p: Product) {
    p.id in s.rows && s.rows[p.id] == p
  }

  /** The active rows with id `from` or above, in id order. */
  function ActiveFrom(s: Store, from: nat): (r: seq<Product>)
    requires Valid(s)
    ensures forall p :: p in r <==> from <= p.id && IsStored(s, p) && p.IsActive()
    ensures IdsIncreasing(r)
    decreases s.nextId - from
  {
    if from >= s.nextId then []
    else if from in s.rows && s.rows[from].IsActive() then [s.rows[from]] + ActiveFrom(s, from + 1)
    else ActiveFrom(s, from + 1)
  }

  /** `createQueryBuilder('product').where('product.deletedAt IS NULL')`. */
  function ActiveRows(s: Store): (r: seq<Product>)
    requires Valid(s)
    ensures forall p :: p in r <==> IsStored(s, p) && p.IsActive()
    ensures IdsIncreasing(r)
  {
    ActiveFrom(s, 0)
  }

  /** `LOWER(column) LIKE LOWER('%' || filter || '%')`, added only when the
      filter is a non-empty string. */
  predicate TextFilter(filter: Option<string>, value: string) {
    filter.None? || filter.value == "" || Text.Contains(Text.Lower(value), Text.Lower(filter.value))
  }

  /** `product.price >= :minPrice` when a minimum is given; a null price fails it. */
  predicate AtLeast(bound: Option<int>, price: Option<int>) {
    bound.None? || (price.Some? && price.value >= bound.value)
  }

  /** `product.price <= :maxPrice` when a maximum is given; a null price fails it. */
  predicate AtMost(bound: Option<int>, price: Option<int>) {
    bound.None? || (price.Some? && price.value <= bound.value)
  }

  /** The conjunction of every condition `applyFilters` adds. */
  predicate Matches(q: ProductQuery, p: Product) {
    && TextFilter(q.name, p.name)
    && TextFilter(q.category, p.category)
    && TextFilter(q.brand, p.brand)
    && TextFilter(q.color, p.color)
    && AtLeast(q.minPrice, p.price)
    && AtMost(q.maxPrice, p.price)
  }

  /** The rows `applyFilters` keeps; rows listed by increasing id stay so. */
  function ApplyFilters(q: ProductQuery, rows: seq<Product>): (r: seq<Product>)
    ensures forall p :: p in r <==> p in rows && Matches(q, p)
    ensures IdsIncreasing(rows) ==> IdsIncreasing(r)
  {
    if |rows| == 0 then []
    else
      var rest := ApplyFilters(q, rows[1..]);
      assert forall p :: p in rows <==> p == rows[0] || p in rows[1..];
      if Matches(q, rows[0]) then
        assert IdsIncreasing(rows) ==> forall p :: p in rest ==> rows[0].id < p.id by {
          if IdsIncreasing(rows) {
            HeadIdBelowTail(rows);
          }
        }
        [rows[0]] + rest
      else
        rest
  }

  /** The ids of the active rows a query matches: what `getCount` counts. */
  ghost function MatchingIds(s: Store, q: ProductQuery): set<Id> {
    set id | id in s.rows && s.rows[id].IsActive() && Matches(q, s.rows[id])
  }

  function IdsOf(rs: seq<Product>): set<Id> {
    set p | p in rs :: p.id
  }

  /** In rows with increasing ids, the first id is below every later one. */
  lemma HeadIdBelowTail(rs: seq<Product>)
    requires |rs| > 0 && IdsIncreasing(rs)
    ensures forall p :: p in rs[1..] ==> rs[0].id < p.id
  {
    forall p | p in rs[1..] ensures rs[0].id < p.id {
      var j :| 0 <= j < |rs[1..]| && rs[1..][j] == p;
      assert rs[j + 1] == p;
    }
  }

  /** Rows with distinct ids are as many as their ids. */
  lemma {:induction false} DistinctIdsCount(rs: seq<Product>)
    requires IdsIncreasing(rs)
    ensures |IdsOf(rs)| == |rs|
  {
    if |rs| > 0 {
      var tail := rs[1..];
      DistinctIdsCount(tail);
      HeadIdBelowTail(rs);
      assert forall p :: p in rs <==> p == rs[0] || p in tail;
      assert IdsOf(rs) == {rs[0].id} + IdsOf(tail);
    }
  }

  /** The fields `applySorting` accepts. */
  datatype SortField = Name | Price | Category | Brand | CreatedAt

  const AllowedSortFields: seq<string> := ["name", "price", "category", "brand", "createdAt"]

  function FieldName(f: SortField): string {
    match f
    case Name => "name"
    case Price => "price"
    case Category => "category"
    case Brand => "brand"
    case CreatedAt => "createdAt"
  }

  /** The whitelisted column to order by; anything else falls back to `createdAt`. */
  function SortFieldOf(sortBy: string): (f: SortField)
    ensures sortBy in AllowedSortFields ==> FieldName(f) == sortBy
    ensures sortBy !in AllowedSortFields ==> f == CreatedAt
  {
    if sortBy == "name" then Name
    else if sortBy == "price" then Price
    else if sortBy == "category" then Category
    else if sortBy == "brand" then Brand
    else CreatedAt
  }

  /** Every sort field is reached from its own name. */
  lemma SortFieldRoundTrip(f: SortField)
    ensures FieldName(f) in AllowedSortFields
    ensures SortFieldOf(FieldName(f)) == f
  {
  }

  datatype Direction = Asc | Desc

  function DirectionName(d: Direction): string {
    if d == Asc then "ASC" else "DESC"
  }

  /** The `order` argument of `orderBy`, which refuses anything but ASC and DESC. */
  function ParseDirection(order: string): (r: Result<Direction, ProductsError>)
    ensures r.Success? <==> order == "ASC" || order == "DESC"
    ensures r.Success? ==> DirectionName(r.value) == order
    ensures r.Failure? ==> r.error == InvalidSortOrder(order)
  {
    if order == "ASC" then Success(Asc)
    else if order == "DESC" then Success(Desc)
    else Failure(InvalidSortOrder(order))
  }

  /** Ascending order on a nullable price column; NULL sorts after every value. */
  predicate PriceLe(a: Option<int>, b: Option<int>) {
    b.None? || (a.Some? && a.value <= b.value)
  }

  /** `a` may come before `b` when ascending by `f`. */
  predicate KeyLe(f: SortField, a: Product, b: Product) {
    match f
    case Name => Text.LexLe(a.name, b.name)
    case Price => PriceLe(a.price, b.price)
    case Category => Text.LexLe(a.category, b.category)
    case Brand => Text.LexLe(a.brand, b.brand)
    case CreatedAt => a.createdAt <= b.createdAt
  }

  /** `a` may come before `b` in `ORDER BY f d`. */
  predicate InOrder(f: SortField, d: Direction, a: Product, b: Product) {
    if d == Asc then KeyLe(f, a, b) else KeyLe(f, b, a)
  }

  lemma InOrderTotal(f: SortField, d: Direction, a: Product, b: Product)
    ensures InOrder(f, d, a, b) || InOrder(f, d, b, a)
  {
    match f
    case Name => Text.LexLeTotal(a.name, b.name);
    case Category => Text.LexLeTotal(a.category, b.category);
    case Brand => Text.LexLeTotal(a.brand, b.brand);
    case Price =>
    case CreatedAt =>
  }

  lemma KeyLeTransitive(f: SortField, a: Product, b: Product, c: Product)
    requires KeyLe(f, a, b) && KeyLe(f, b, c)
    ensures KeyLe(f, a, c)
  {
    match f
    case Name => Text.LexLeTransitive(a.name, b.name, c.name);
    case Category => Text.LexLeTransitive(a.category, b.category, c.category);
    case Brand => Text.LexLeTransitive(a.brand, b.brand, c.brand);
    case Price =>
    case CreatedAt =>
  }

  lemma InOrderTransitive(f: SortField, d: Direction, a: Product, b: Product, c: Product)
    requires InOrder(f, d, a, b) && InOrder(f, d, b, c)
    ensures InOrder(f, d, a, c)
  {
    if d == Asc {
      KeyLeTransitive(f, a, b, c);
    } else {
      KeyLeTransitive(f, c, b, a);
    }
  }

  predicate Sorted(f: SortField, d: Direction, rs: seq<Product>) {
    forall i, j :: 0 <= i < j < |rs| ==> InOrder(f, d, rs[i], rs[j])
  }

  /** A row that may precede every row of a sorted sequence may head it. */
  lemma SortedCons(f: SortField, d: Direction, h: Product, rs: seq<Product>)
    requires Sorted(f, d, rs)
    requires forall j :: 0 <= j < |rs| ==> InOrder(f, d, h, rs[j])
    ensures Sorted(f, d, [h] + rs)
  {
    var r := [h] + rs;
    forall i, j | 0 <= i < j < |r| ensures InOrder(f, d, r[i], r[j]) {
      assert r[j] == rs[j - 1];
      if i > 0 {
        assert r[i] == rs[i - 1];
      }
    }
  }

  /** A row that may precede the head of a sorted sequence may precede all of it. */
  lemma PrecedesAll(f: SortField, d: Direction, x: Product, rs: seq<Product>)
    requires Sorted(f, d, rs) && |rs| > 0 && InOrder(f, d, x, rs[0])
    ensures forall j :: 0 <= j < |rs| ==> InOrder(f, d, x, rs[j])
  {
    forall j | 0 < j < |rs| ensures InOrder(f, d, x, rs[j]) {
      InOrderTransitive(f, d, x, rs[0], rs[j]);
    }
  }

  /** The head of a sorted sequence may precede every row of its tail with one
      more row added after it. */
  lemma HeadPrecedesInsertion(f: SortField, d: Direction, x: Product, rs: seq<Product>, rest: seq<Product>)
    requires Sorted(f, d, rs) && |rs| > 0 && InOrder(f, d, rs[0], x)
    requires multiset(rest) == multiset(rs[1..]) + multiset{x}
    ensures forall j :: 0 <= j < |rest| ==> InOrder(f, d, rs[0], rest[j])
  {
    var tail := rs[1..];
    forall j | 0 <= j < |rest| ensures InOrder(f, d, rs[0], rest[j]) {
      assert rest[j] in multiset(rest);
      if rest[j] != x {
        assert rest[j] in multiset(tail);
        var k :| 0 <= k < |tail| && tail[k] == rest[j];
        assert rs[k + 1] == rest[j];
      }
    }
  }

  /** `x` placed into the sorted `rs` ahead of the first row it may precede. */
  function InsertInOrder(f: SortField, d: Direction, x: Product, rs: seq<Product>): (r: seq<Product>)
    requires Sorted(f, d, rs)
    ensures Sorted(f, d, r)
    ensures multiset(r) == multiset(rs) + multiset{x}
  {
    if |rs| == 0 then
      [x]
    else if InOrder(f, d, x, rs[0]) then
      assert Sorted(f, d, [x] + rs) by {
        PrecedesAll(f, d, x, rs);
        SortedCons(f, d, x, rs);
      }
      [x] + rs
    else
      var tail := rs[1..];
      assert Sorted(f, d, tail);
      var rest := InsertInOrder(f, d, x, tail);
      assert rs == [rs[0]] + tail;
      assert Sorted(f, d, [rs[0]] + rest) by {
        InOrderTotal(f, d, x, rs[0]);
        HeadPrecedesInsertion(f, d, x, rs, rest);
        SortedCons(f, d, rs[0], rest);
      }
      [rs[0]] + rest
  }

  /** The rows of `rs` in the order `ORDER BY f d` may return them. */
  function SortRows(f: SortField, d: Direction, rs: seq<Product>): (r: seq<Product>)
    ensures Sorted(f, d, r)
    ensures multiset(r) == multiset(rs)
  {
    if |rs| == 0 then []
    else
      assert rs == [rs[0]] + rs[1..];
      InsertInOrder(f, d, rs[0], SortRows(f, d, rs[1..]))
  }

  /** `skip(skip).take(limit)`: at most `limit` rows, starting after the first `skip`. */
  function SkipTake(rs: seq<Product>, skip: nat, limit: nat): (r: seq<Product>)
    ensures |r| <= limit
    ensures skip >= |rs| ==> |r| == 0
    ensures skip < |rs| ==> skip + |r| <= |rs| && (|r| == limit || skip + |r| == |rs|)
    ensures forall i :: 0 <= i < |r| ==> r[i] == rs[skip + i]
    ensures forall p :: p in r ==> p in rs
  {
    if skip >= |rs| then []
    else if |rs| - skip <= limit then rs[skip..]
    else rs[skip..skip + limit]
  }

  /** `(page - 1) * limit`: the rows before page `page` when pages hold `limit` rows. */
  function Skip(page: int, limit: int): nat
    requires page >= 1 && limit >= 1
  {
    var n := (page - 1) * limit;
    assert n >= 0 by {
      assert page - 1 >= 0;
    }
    n
  }

  /** The rows of page `page` when pages hold `limit` rows. */
  function Window(rs: seq<Product>, page: int, limit: int): (r: seq<Product>)
    requires page >= 1 && limit >= 1
    ensures |r| <= limit
    ensures Skip(page, limit) >= |rs| ==> |r| == 0
    ensures Skip(page, limit) < |rs| ==>
      Skip(page, limit) + |r| <= |rs| && (|r| == limit || Skip(page, limit) + |r| == |rs|)
    ensures forall i :: 0 <= i < |r| ==> r[i] == rs[Skip(page, limit) + i]
    ensures forall p :: p in r ==> p in rs
  {
    SkipTake(rs, Skip(page, limit), limit)
  }

  /** A page of a sorted listing is sorted. */
  lemma WindowKeepsOrder(f: SortField, d: Direction, rs: seq<Product>, page: int, limit: int)
    requires page >= 1 && limit >= 1 && Sorted(f, d, rs)
    ensures Sorted(f, d, Window(rs, page, limit))
  {
    var w := Window(rs, page, limit);
    forall i, j | 0 <= i < j < |w| ensures InOrder(f, d, w[i], w[j]) {
      assert w[i] == rs[Skip(page, limit) + i];
      assert w[j] == rs[Skip(page, limit) + j];
    }
  }

  /** Pages 1 to n laid end to end. */
  function FirstPages(rs: seq<Product>, n: nat, limit: int): seq<Product>
    requires limit >= 1
  {
    if n == 0 then [] else FirstPages(rs, n - 1, limit) + Window(rs, n, limit)
  }

  /** Consecutive pages tile the listing: the first n pages are exactly its first
      n * limit rows, with nothing skipped or repeated. */
  lemma {:induction false} FirstPagesArePrefix(rs: seq<Product>, n: nat, limit: int)
    requires limit >= 1
    ensures n * limit <= |rs| ==> FirstPages(rs, n, limit) == rs[..n * limit]
    ensures n * limit > |rs| ==> FirstPages(rs, n, limit) == rs
  {
    if n > 0 {
      FirstPagesArePrefix(rs, n - 1, limit);
      var skip := Skip(n, limit);
      assert skip + limit == n * limit;
      assert Window(rs, n, limit) == SkipTake(rs, skip, limit);
      NextPageExtendsPrefix(rs, FirstPages(rs, n - 1, limit), skip, limit);
    }
  }

  /** The rows after the first `skip` continue a listing's prefix of length `skip`. */
  lemma NextPageExtendsPrefix(rs: seq<Product>, prefix: seq<Product>, skip: nat, limit: nat)
    requires prefix == if skip <= |rs| then rs[..skip] else rs
    ensures prefix + SkipTake(rs, skip, limit) == if skip + limit <= |rs| then rs[..skip + limit] else rs
  {
    if skip >= |rs| {
    } else if skip + limit <= |rs| {
      assert rs[..skip] + rs[skip..skip + limit] == rs[..skip + limit];
    } else {
      assert rs[..skip] + rs[skip..] == rs;
    }
  }

  /** The response of `findAll`. */
  datatype Page = Page(data: seq<Product>, total: nat, page: int, limit: int)

  /** Every active row the query matches, in the requested order. */
  function Listing(s: Store, q: ProductQuery, f: SortField, d: Direction): (r: seq<Product>)
    requires Valid(s)
    ensures forall p :: p in r <==> IsStored(s, p) && p.IsActive() && Matches(q, p)
    ensures |r| == |MatchingIds(s, q)|
    ensures Sorted(f, d, r)
  {
    var matching := ApplyFilters(q, ActiveRows(s));
    var r := SortRows(f, d, matching);
    assert forall p :: p in r <==> p in matching by {
      forall p ensures p in r <==> p in matching {
        assert p in r <==> p in multiset(r);
        assert p in matching <==> p in multiset(matching);
      }
    }
    assert |r| == |matching| by {
      assert |multiset(r)| == |multiset(matching)|;
    }
    assert IdsOf(matching) == MatchingIds(s, q);
    DistinctIdsCount(matching);
    r
  }

  /** `findAll`: the requested page of the matching active products in the
      requested order, with the number of matches before paging. */
  function FindAll(s: Store, q: ProductQuery): (r: Result<Page, ProductsError>)
    requires Valid(s) && IsValid(q)
    ensures r.Failure? <==> q.sortOrder != "ASC" && q.sortOrder != "DESC"
    ensures r.Failure? ==> r.error == InvalidSortOrder(q.sortOrder)
    ensures r.Success? ==>
      && r.value.page == q.page && r.value.limit == q.limit
      && r.value.total == |MatchingIds(s, q)|
      && |r.value.data| <= q.limit
      && (Skip(q.page, q.limit) >= r.value.total ==> |r.value.data| == 0)
      && (Skip(q.page, q.limit) < r.value.total ==>
            |r.value.data| == q.limit || Skip(q.page, q.limit) + |r.value.data| == r.value.total)
      && (forall p :: p in r.value.data ==> IsStored(s, p) && p.IsActive() && Matches(q, p))
      && Sorted(SortFieldOf(q.sortBy), ParseDirection(q.sortOrder).value, r.value.data)
    ensures r.Success? ==>
      r.value.data == Window(Listing(s, q, SortFieldOf(q.sortBy), ParseDirection(q.sortOrder).value), q.page, q.limit)
  {
    var d :- ParseDirection(q.sortOrder);
    var f := SortFieldOf(q.sortBy);
    var all := Listing(s, q, f, d);
    var data := Window(all, q.page, q.limit);
    assert Sorted(f, d, data) by {
      WindowKeepsOrder(f, d, all, q.page, q.limit);
    }
    Success(Page(data, |all|, q.page, q.limit))
  }

  /** `findById`: the active product with this id, or NotFound. */
  function FindById(s: Store, id: Id): (r: Result<Product, ProductsError>)
    requires Valid(s)
    ensures r.Success? <==> id in s.rows && s.rows[id].IsActive()
    ensures r.Success? ==> r.value == s.rows[id]
    ensures r.Failure? ==> r.error == NotFound(id)
  {
    match FindOne(s, (p: Product) => p.id == id)
    case Some(k) => Success(s.rows[k])
    case None => Failure(NotFound(id))
  }

  /** `a` is `b` apart from the two columns soft delete and restore write. */
  predicate SameRecord(a: Product, b: Product) {
    a == b.(deletedAt := a.deletedAt, updatedAt := a.updatedAt)
  }

  /** The UPDATE behind `softDelete(id)` and `restore(id)`: the row with this id,
      if any, gets `deletedAt` and a fresh `updatedAt`. */
  function SetDeletedAt(s: Store, id: Id, deletedAt: Option<Timestamp>, now: Timestamp): (r: Store)
    requires Valid(s)
    ensures Valid(r) && r.nextId == s.nextId && r.rows.Keys == s.rows.Keys
    ensures forall k :: k in s.rows && k != id ==> r.rows[k] == s.rows[k]
    ensures id in s.rows ==>
      SameRecord(r.rows[id], s.rows[id]) && r.rows[id].deletedAt == deletedAt && r.rows[id].updatedAt == now
  {
    if id in s.rows then
      var r := Store(s.rows[id := s.rows[id].(deletedAt := deletedAt, updatedAt := now)], s.nextId);
      assert UniqueKeys(r.rows) by {
        forall a, b | a in r.rows && b in r.rows && a != b
          ensures r.rows[a].contentfulId != r.rows[b].contentfulId && r.rows[a].sku != r.rows[b].sku
        {
          assert r.rows[a].contentfulId == s.rows[a].contentfulId && r.rows[a].sku == s.rows[a].sku;
          assert r.rows[b].contentfulId == s.rows[b].contentfulId && r.rows[b].sku == s.rows[b].sku;
        }
      }
      r
    else s
  }

  /** `delete`: soft-delete the active product with this id; NotFound, with
      nothing marked, when there is none. */
  function Delete(s: Store, id: Id, now: Timestamp): (r: Result<Store, ProductsError>)
    requires Valid(s)
    ensures r.Success? <==> id in s.rows && s.rows[id].IsActive()
    ensures r.Failure? ==> r.error == NotFound(id)
    ensures r.Success? ==>
      && Valid(r.value) && r.value.nextId == s.nextId && r.value.rows.Keys == s.rows.Keys
      && (forall k :: k in s.rows && k != id ==> r.value.rows[k] == s.rows[k])
      && !r.value.rows[id].IsActive()
      && r.value.rows[id].deletedAt == Some(now)
      && r.value.rows[id].updatedAt == now
      && SameRecord(r.value.rows[id], s.rows[id])
  {
    var _ :- FindById(s, id);
    Success(SetDeletedAt(s, id, Some(now), now))
  }

  /** `findOne({ where: { id }, withDeleted: true })`. */
  function FindWithDeleted(s: Store, id: Id): (r: Option<Product>)
    ensures r.Some? <==> id in s.rows
    ensures r.Some? ==> r.value == s.rows[id]
  {
    if id in s.rows then Some(s.rows[id]) else None
  }

  /** `restore`: clear `deletedAt` of the row with this id, deleted or not, and
      return it; NotFound when no row, not even a deleted one, has the id. */
  function Restore(s: Store, id: Id, now: Timestamp): (r: Result<(Store, Product), ProductsError>)
    requires Valid(s)
    ensures r.Success? <==> id in s.rows
    ensures r.Failure? ==> r.error == NotFound(id)
    ensures r.Success? ==>
      var (s', p) := r.value;
      && Valid(s') && s'.nextId == s.nextId && s'.rows.Keys == s.rows.Keys
      && (forall k :: k in s.rows && k != id ==> s'.rows[k] == s.rows[k])
      && s'.rows[id] == p
      && p.IsActive()
      && p.updatedAt == now
      && SameRecord(p, s.rows[id])
  {
    var s' := SetDeletedAt(s, id, None, now);
    match FindWithDeleted(s', id)
    case None => Failure(NotFound(id))
    case Some(p) => Success((s', p))
  }

  /** Restoring a product right after deleting it brings back the same record and
      leaves every other row as it was. */
  lemma RestoreUndoesDelete(s: Store, id: Id, t1: Timestamp, t2: Timestamp)
    requires Valid(s) && Delete(s, id, t1).Success?
    ensures Restore(Delete(s, id, t1).value, id, t2).Success?
    ensures var (s2, p) := Restore(Delete(s, id, t1).value, id, t2).value;
      && p == s.rows[id].(updatedAt := t2)
      && s2.rows == s.rows[id := p]
      && FindById(s2, id) == Success(p)
  {
    var s1 := Delete(s, id, t1).value;
    var (s2, p) := Restore(s1, id, t2).value;
    assert p == s.rows[id].(updatedAt := p.updatedAt);
    assert s2.rows == s.rows[id := p];
  }

  /** A deleted product is no longer found, cannot be deleted again, and no
      listing shows it. */
  lemma DeletedIsHidden(s: Store, id: Id, now: Timestamp, q: ProductQuery)
    requires Valid(s) && IsValid(q) && Delete(s, id, now).Success?
    ensures var s1 := Delete(s, id, now).value;
      && FindById(s1, id) == Failure(NotFound(id))
      && Delete(s1, id, now) == Failure(NotFound(id))
      && (FindAll(s1, q).Success? ==> forall p :: p in FindAll(s1, q).value.data ==> p.id != id)
  {
  }
}

=== FILE: query.dfy ===
/** `ProductQueryDto`: the query string of the product listing after conversion
    to the DTO class (defaults of the class fields, `@Type(() => Number)` on the
    numeric fields, upper-casing of `sortOrder`) and its validation (`@IsNumber`,
    `@Min(1)`, `@IsString`, every field `@IsOptional`). */
module Query {
  import opened Wrappers
  import Text

  /** A numeric query parameter after `Number(...)`: a number, or `NaN` when the
      text does not parse. */
  datatype Numeric = Num(value: int) | NaN

  /** The query parameters as received; a parameter left out of the URL is `None`. */
  datatype RawQuery = RawQuery(
    page: Option<Numeric>,
    limit: Option<Numeric>,
    name: Option<string>,
    category: Option<string>,
    brand: Option<string>,
    color: Option<string>,
    minPrice: Option<Numeric>,
    maxPrice: Option<Numeric>,
    sortBy: Option<string>,
    sortOrder: Option<string>)

  /** A query that passed validation, with every default filled in. */
  datatype ProductQuery = ProductQuery(
    page: int,
    limit: int,
    name: Option<string>,
    category: Option<string>,
    brand: Option<string>,
    color: Option<string>,
    minPrice: Option<int>,
    maxPrice: Option<int>,
    sortBy: string,
    sortOrder: string)

  const DefaultPage: int := 1
  const DefaultLimit: int := 5
  /** The maximum the API documentation announces for `limit`; no validator enforces it. */
  const DocumentedMaxLimit: int := 5
  const DefaultSortBy: string := "createdAt"
  const DefaultSortOrder: string := "DESC"

  /** What `findAll` relies on: a page and a page size of at least one. */
  predicate IsValid(q: ProductQuery) {
    q.page >= 1 && q.limit >= 1
  }

  /** `@IsOptional() @IsNumber() @Min(1)`: absent, or a number of at least one. */
  predicate AtLeastOneOrAbsent(v: Option<Numeric>) {
    v.None? || (v.value.Num? && v.value.value >= 1)
  }

  /** `@IsOptional() @IsNumber()`: absent, or a number. */
  predicate NumberOrAbsent(v: Option<Numeric>) {
    v.None? || v.value.Num?
  }

  function NumberOr(v: Option<Numeric>, default: int): int
    requires NumberOrAbsent(v)
  {
    if v.Some? then v.value.value else default
  }

  function OptionalNumber(v: Option<Numeric>): Option<int>
    requires NumberOrAbsent(v)
  {
    if v.Some? then Some(v.value.value) else None
  }

  /** The properties that fail validation, in the order the class declares them. */
  function FailingProperties(raw: RawQuery): seq<string> {
    (if AtLeastOneOrAbsent(raw.page) then [] else ["page"])
    + (if AtLeastOneOrAbsent(raw.limit) then [] else ["limit"])
    + (if NumberOrAbsent(raw.minPrice) then [] else ["minPrice"])
    + (if NumberOrAbsent(raw.maxPrice) then [] else ["maxPrice"])
  }

  /** `plainToClass(ProductQueryDto, raw)` followed by `validate`: the converted
      query, or the names of the properties that failed. */
  function Validate(raw: RawQuery): (r: Result<ProductQuery, seq<string>>)
    ensures r.Success? <==>
      AtLeastOneOrAbsent(raw.page) && AtLeastOneOrAbsent(raw.limit)
      && NumberOrAbsent(raw.minPrice) && NumberOrAbsent(raw.maxPrice)
    ensures r.Success? ==> IsValid(r.value)
    ensures r.Failure? ==> |r.error| > 0
    ensures r.Failure? ==>
      && ("page" in r.error <==> !AtLeastOneOrAbsent(raw.page))
      && ("limit" in r.error <==> !AtLeastOneOrAbsent(raw.limit))
      && ("minPrice" in r.error <==> !NumberOrAbsent(raw.minPrice))
      && ("maxPrice" in r.error <==> !NumberOrAbsent(raw.maxPrice))
    ensures r.Failure? && !AtLeastOneOrAbsent(raw.page) ==> r.error[0] == "page"
    ensures r.Success? ==>
      && (raw.page.None? ==> r.value.page == DefaultPage)
      && (raw.page.Some? ==> r.value.page == raw.page.value.value)
      && (raw.limit.None? ==> r.value.limit == DefaultLimit)
      && (raw.limit.Some? ==> r.value.limit == raw.limit.value.value)
      && r.value.name == raw.name && r.value.category == raw.category
      && r.value.brand == raw.brand && r.value.color == raw.color
      && (raw.minPrice.Some? <==> r.value.minPrice.Some?)
      && (raw.minPrice.Some? ==> r.value.minPrice.value == raw.minPrice.value.value)
      && (raw.maxPrice.Some? <==> r.value.maxPrice.Some?)
      && (raw.maxPrice.Some? ==> r.value.maxPrice.value == raw.maxPrice.value.value)
      && (raw.sortBy.None? ==> r.value.sortBy == DefaultSortBy)
      && (raw.sortBy.Some? ==> r.value.sortBy == raw.sortBy.value)
      && (raw.sortOrder.None? ==> r.value.sortOrder == DefaultSortOrder)
      && (raw.sortOrder.Some? ==> r.value.sortOrder == Text.Upper(raw.sortOrder.value))
  {
    var failing := FailingProperties(raw);
    if |failing| > 0 then
      Failure(failing)
    else
      Success(ProductQuery(
        NumberOr(raw.page, DefaultPage),
        NumberOr(raw.limit, DefaultLimit),
        raw.name, raw.category, raw.brand, raw.color,
        OptionalNumber(raw.minPrice), OptionalNumber(raw.maxPrice),
        raw.sortBy.GetOr(DefaultSortBy),
        if raw.sortOrder.Some? then Text.Upper(raw.sortOrder.value) else DefaultSortOrder))
  }

  const EmptyQuery := RawQuery(None, None, None, None, None, None, None, None, None, None)

  /** An empty query string validates, and the DTO's initialisers give page 1,
      limit 5, sort by `createdAt`, order `DESC` and no filters. */
  lemma EmptyQueryDefaults()
    ensures Validate(EmptyQuery).Success?
    ensures var q := Validate(EmptyQuery).value;
      q.page == 1 && q.limit == 5 && q.sortBy == "createdAt" && q.sortOrder == "DESC"
      && q.name.None? && q.category.None? && q.brand.None? && q.color.None?
      && q.minPrice.None? && q.maxPrice.None?
  {
  }

  /** A page below one is rejected, and `page` is the first property reported. */
  lemma PageBelowOneRejected(raw: RawQuery, n: int)
    requires raw.page == Some(Num(n)) && n < 1
    ensures Validate(raw).Failure?
    ensures Validate(raw).error[0] == "page"
  {
  }

  /** A limit above the documented maximum of five is still accepted. */
  lemma LimitAboveDocumentedMaxAccepted(n: int)
    requires n > DocumentedMaxLimit
    ensures var raw := EmptyQuery.(limit := Some(Num(n)));
      Validate(raw).Success? && Validate(raw).value.limit == n
  {
  }

  /** `sortOrder` is only upper-cased, never checked against ASC/DESC: any text
      validates, and texts differing only in letter case validate alike. */
  lemma SortOrderOnlyUppercased(raw: RawQuery, order: string)
    requires AtLeastOneOrAbsent(raw.page) && AtLeastOneOrAbsent(raw.limit)
    requires NumberOrAbsent(raw.minPrice) && NumberOrAbsent(raw.maxPrice)
    ensures var a := Validate(raw.(sortOrder := Some(order)));
            var b := Validate(raw.(sortOrder := Some(Text.Upper(order))));
      a.Success? && b.Success? && a.value == b.value
  {
    Text.UpperIdempotent(order);
  }
}

=== FILE: schedule.dfy ===
/** The two callers of the sync engine: the hourly cron tick, which swallows and
    logs a failed run, and the manual trigger, which hands the run's outcome,
    failure included, to its caller. Both use the same run. */
module Schedule {
  import opened Wrappers
  import opened Catalog
  import opened Contentful

  /** What the scheduler writes to its log. */
  datatype LogEntry =
    | Info(message: string)
    | Completed(stats: SyncStats)
    | Error(message: string, cause: SyncError)

  const StartMessage := "Starting scheduled product sync from Contentful..."
  const FailureMessage := "Scheduled product sync failed:"
  const ManualMessage := "Manual product sync triggered..."

  /** What one tick leaves behind: the table and the scheduler's log lines. It has
      no counts and no error: the tick returns nothing and never throws. */
  datatype Tick = Tick(store: Store, log: seq<LogEntry>)

  /** `handleProductSync`: one run of `syncProducts`; its counts go only to the
      log, and a failure is logged and swallowed. */
  function HandleProductSync(s: Store, src: Source, now: Timestamp): (t: Tick)
    requires Valid(s)
    ensures Valid(t.store)
    ensures |t.log| == 2 && t.log[0] == Info(StartMessage)
    ensures src.Unreachable? <==> t.log[1].Error?
    ensures src.Unreachable? ==>
      t.store == s && t.log[1] == Error(FailureMessage, SyncError(FetchFailedMessage))
    ensures src.Reachable? ==>
      var (s', stats) := SyncProducts(s, src, now).value;
      t.store == s' && t.log[1] == Completed(stats)
  {
    match SyncProducts(s, src, now)
    case Success((s', stats)) => Tick(s', [Info(StartMessage), Completed(stats)])
    case Failure(e) => Tick(s, [Info(StartMessage), Error(FailureMessage, e)])
  }

  /** A tick never logs a created product, however many rows the run inserted:
      the counts it logs are those of `syncProducts` as written. */
  lemma TickNeverLogsCreated(s: Store, src: Source, now: Timestamp)
    requires Valid(s)
    ensures var t := HandleProductSync(s, src, now);
      t.log[1].Completed? ==> t.log[1].stats.created == 0
  {
    AsWrittenNeverCountsCreated(s, src, now);
  }

  /** `triggerManualSync`: the same run, its result or its failure returned as is. */
  function TriggerManualSync(s: Store, src: Source, now: Timestamp): (r: (LogEntry, Result<(Store, SyncStats), SyncError>))
    requires Valid(s)
    ensures r.0 == Info(ManualMessage)
    ensures r.1 == SyncProducts(s, src, now)
    ensures r.1.Failure? <==> src.Unreachable?
  {
    (Info(ManualMessage), SyncProducts(s, src, now))
  }

  /** A tick and a manual trigger over the same table and source run the sync once
      each and agree: the tick leaves the table the manual run returns, or the
      table untouched where the manual run fails. */
  lemma TickAgreesWithManualTrigger(s: Store, src: Source, now: Timestamp)
    requires Valid(s)
    ensures var t := HandleProductSync(s, src, now);
            var (_, m) := TriggerManualSync(s, src, now);
      && (m.Success? ==> t.store == m.value.0 && t.log[1] == Completed(m.value.1))
      && (m.Failure? ==> t.store == s && t.log[1] == Error(FailureMessage, m.error))
  {
  }

  /** Successive hourly ticks: each runs the sync on the table the previous one
      left. A failed tick changes nothing and does not stop the ticks after it. */
  function RunTicks(s: Store, sources: seq<Source>, times: seq<Timestamp>): (r: Store)
    requires Valid(s) && |sources| == |times|
    ensures Valid(r)
    ensures (forall i :: 0 <= i < |sources| ==> sources[i].Unreachable?) ==> r == s
    decreases |sources|
  {
    if |sources| == 0 then s
    else RunTicks(HandleProductSync(s, sources[0], times[0]).store, sources[1..], times[1..])
  }

  /** Failed ticks do not stop the schedule: when every tick but the last fails,
      the table is the one the last tick alone leaves. */
  lemma {:induction false} OnlyLastTickReachable(s: Store, sources: seq<Source>, times: seq<Timestamp>)
    requires Valid(s) && |sources| == |times| && |sources| > 0
    requires forall i :: 0 <= i < |sources| - 1 ==> sources[i].Unreachable?
    ensures RunTicks(s, sources, times)
      == HandleProductSync(s, sources[|sources| - 1], times[|times| - 1]).store
    decreases |sources|
  {
    if |sources| > 1 {
      assert sources[0].Unreachable?;
      assert HandleProductSync(s, sources[0], times[0]).store == s;
      assert forall i :: 0 <= i < |sources[1..]| - 1 ==> sources[1..][i].Unreachable? by {
        forall i | 0 <= i < |sources[1..]| - 1 ensures sources[1..][i].Unreachable? {
          assert sources[1..][i] == sources[i + 1];
        }
      }
      OnlyLastTickReachable(s, sources[1..], times[1..]);
    }
  }
}

=== FILE: sync_properties.dfy ===
/** Properties of the sync engine that relate several calls or several rows. */
module SyncProperties {
  import opened Wrappers
  import opened Catalog
  import opened Contentful

  /** An entry with a new `sys.id` whose `sku` belongs to an active product
      rewrites that product's `contentfulId` instead of adding a second row. */
  lemma SkuFallbackRewritesContentfulId(s: Store, e: RawEntry, now: Timestamp, id: Id)
    requires Valid(s) && FieldsFit(e)
    requires id in s.rows && s.rows[id].IsActive() && e.fields.sku == Some(s.rows[id].sku)
    requires !ContentfulIdTaken(s.rows, e.sys.id, None)
    ensures UpsertProduct(s, e, now).Success?
    ensures var (s', p) := UpsertProduct(s, e, now).value;
      && p.id == id
      && s'.rows.Keys == s.rows.Keys
      && s'.rows[id].contentfulId == e.sys.id
      && s'.rows[id].createdAt == s.rows[id].createdAt
  {
    assert FindExisting(s, e) == Some(id) by {
      var found := FindExisting(s, e);
      assert HasActiveMatch(s, e) by {
        assert MatchesEntry(s.rows[id], e);
      }
      assert s.rows[found.value].sku == s.rows[id].sku;
    }
    assert !SkuTaken(s.rows, e.fields.sku.value, Some(id));
  }

  /** When the entry's `sys.id` names one row and its `sku` another, the upsert
      fails whichever of the two the lookup returns (or if it returns neither),
      so the entry is counted as an error. */
  lemma ConflictingMatchesFail(s: Store, e: RawEntry, now: Timestamp, a: Id, b: Id)
    requires Valid(s)
    requires a in s.rows && b in s.rows && a != b
    requires s.rows[a].contentfulId == e.sys.id && e.fields.sku == Some(s.rows[b].sku)
    ensures UpsertProduct(s, e, now).Failure?
  {
    var data := ToProductData(e, now);
    match FindExisting(s, e)
    case Some(id) =>
      if id == a {
        assert SkuTaken(s.rows, data.sku.value, Some(id)) by {
          assert s.rows[b].sku == data.sku.value;
        }
      } else {
        assert ContentfulIdTaken(s.rows, data.contentfulId, Some(id)) by {
          assert s.rows[a].contentfulId == data.contentfulId;
        }
      }
    case None =>
      assert ContentfulIdTaken(s.rows, data.contentfulId, None) by {
        assert s.rows[a].contentfulId == data.contentfulId;
      }
  }

  /** The sync never revives or duplicates a soft-deleted product: an entry that
      shares either key with a soft-deleted row fails to save on every run. */
  lemma SoftDeletedRowBlocksEntry(s: Store, e: RawEntry, now: Timestamp, d: Id)
    requires Valid(s)
    requires d in s.rows && !s.rows[d].IsActive() && MatchesEntry(s.rows[d], e)
    ensures UpsertProduct(s, e, now).Failure?
  {
    var data := ToProductData(e, now);
    var except := FindExisting(s, e);
    if except.Some? {
      assert except.value != d;
    }
    if s.rows[d].contentfulId == e.sys.id {
      assert ContentfulIdTaken(s.rows, data.contentfulId, except) by {
        assert s.rows[d].contentfulId == data.contentfulId;
      }
    } else {
      assert data.sku == Some(s.rows[d].sku);
      assert SkuTaken(s.rows, data.sku.value, except);
    }
  }

  /** Syncing an entry again right after it was saved finds the row just saved,
      and overwrites that same row without adding one. */
  lemma ResyncUpdatesSameRow(s: Store, e: RawEntry, now: Timestamp, later: Timestamp)
    requires Valid(s) && UpsertProduct(s, e, now).Success?
    ensures var (s1, p) := UpsertProduct(s, e, now).value;
      && FindExisting(s1, e) == Some(p.id)
      && UpsertProduct(s1, e, later).Success?
      && var (s2, q) := UpsertProduct(s1, e, later).value;
      && q.id == p.id
      && s2.rows.Keys == s1.rows.Keys
      && q.contentfulId == p.contentfulId && q.sku == p.sku
      && q.createdAt == p.createdAt
  {
    var (s1, p) := UpsertProduct(s, e, now).value;
    assert p.sku == e.fields.sku.GetOr(p.sku) by {
      if e.fields.sku.Some? && !HasActiveMatch(s, e) {
        assert Carries(p, ToProductData(e, now));
      }
    }
    assert s1.rows[p.id] == p;
    assert FindExisting(s1, e) == Some(p.id) by {
      assert HasActiveMatch(s1, e) by {
        assert MatchesEntry(s1.rows[p.id], e);
      }
    }
  }

  /** An entry that leaves out a required column still updates the active product
      it matches: TypeORM skips the undefined column, so the stored value stays
      and the entry is counted as updated, not as an error. */
  lemma IncompleteEntryKeepsStoredColumn(s: Store, e: RawEntry, now: Timestamp, id: Id)
    requires Valid(s) && FieldsFit(e) && e.fields.name.None?
    requires id in s.rows && s.rows[id].IsActive() && s.rows[id].contentfulId == e.sys.id
    requires e.fields.sku.None? || e.fields.sku == Some(s.rows[id].sku)
    ensures UpsertProduct(s, e, now).Success?
    ensures var (s', p) := UpsertProduct(s, e, now).value;
      && p.id == id && s'.rows.Keys == s.rows.Keys && p.name == s.rows[id].name
    ensures SyncEntry(PostWriteLookup, s, e, now, NoStats).1 == SyncStats(0, 1, 0)
    ensures SyncEntry(PreWriteLookup, s, e, now, NoStats).1 == SyncStats(0, 1, 0)
  {
    assert FindExisting(s, e) == Some(id) by {
      assert HasActiveMatch(s, e) by {
        assert MatchesEntry(s.rows[id], e);
      }
    }
    assert !SkuTaken(s.rows, e.fields.sku.GetOr(s.rows[id].sku), Some(id));
    SavedUpsertIsKept(PostWriteLookup, s, e, now, NoStats);
  }

  /** Whatever the classification, a failed upsert is counted as an error and
      leaves the table as it was. */
  lemma FailedUpsertCountsError(how: Classification, s: Store, e: RawEntry, now: Timestamp, st: SyncStats)
    requires Valid(s) && UpsertProduct(s, e, now).Failure?
    ensures SyncEntry(how, s, e, now, st) == (s, st.(errors := st.errors + 1))
  {
  }

  /** Whatever the classification, a successful upsert's table is kept and the
      entry is counted once as created or updated. */
  lemma SavedUpsertIsKept(how: Classification, s: Store, e: RawEntry, now: Timestamp, st: SyncStats)
    requires Valid(s) && UpsertProduct(s, e, now).Success?
    ensures var r := SyncEntry(how, s, e, now, st);
            && r.0 == UpsertProduct(s, e, now).value.0
            && r.1.errors == st.errors
            && r.1.created + r.1.updated == st.created + st.updated + 1
  {
  }

  lemma EntryClassificationOnlySplitsCounts(s: Store, e: RawEntry, now: Timestamp, st1: SyncStats, st2: SyncStats)
    requires Valid(s)
    requires st1.errors == st2.errors && st1.created + st1.updated == st2.created + st2.updated
    ensures var a := SyncEntry(PostWriteLookup, s, e, now, st1);
            var c := SyncEntry(PreWriteLookup, s, e, now, st2);
            && a.0 == c.0
            && a.1.errors == c.1.errors
            && a.1.created + a.1.updated == c.1.created + c.1.updated
  {
    if UpsertProduct(s, e, now).Success? {
      SavedUpsertIsKept(PostWriteLookup, s, e, now, st1);
      SavedUpsertIsKept(PreWriteLookup, s, e, now, st2);
    } else {
      FailedUpsertCountsError(PostWriteLookup, s, e, now, st1);
      FailedUpsertCountsError(PreWriteLookup, s, e, now, st2);
    }
  }

  /** The two classifications differ only in how successes are split between
      created and updated: the store and the error count are the same. */
  lemma {:induction false} ClassificationOnlySplitsCounts(s: Store, entries: seq<RawEntry>, now: Timestamp,
                                                         st1: SyncStats, st2: SyncStats)
    requires Valid(s)
    requires st1.errors == st2.errors && st1.created + st1.updated == st2.created + st2.updated
    ensures var a := SyncEntries(PostWriteLookup, s, entries, now, st1);
            var c := SyncEntries(PreWriteLookup, s, entries, now, st2);
            && a.0 == c.0
            && a.1.errors == c.1.errors
            && a.1.created + a.1.updated == c.1.created + c.1.updated
    decreases |entries|
  {
    if |entries| > 0 {
      var a1 := SyncEntry(PostWriteLookup, s, entries[0], now, st1);
      var c1 := SyncEntry(PreWriteLookup, s, entries[0], now, st2);
      EntryClassificationOnlySplitsCounts(s, entries[0], now, st1, st2);
      ClassificationOnlySplitsCounts(a1.0, entries[1..], now, a1.1, c1.1);
      assert SyncEntries(PostWriteLookup, s, entries, now, st1)
          == SyncEntries(PostWriteLookup, a1.0, entries[1..], now, a1.1);
      assert SyncEntries(PreWriteLookup, s, entries, now, st2)
          == SyncEntries(PreWriteLookup, c1.0, entries[1..], now, c1.1);
    }
  }

  /** Both versions of `syncProducts` leave the store in the same state and count
      the same errors. */
  lemma AsWrittenStoresLikeCorrected(s: Store, src: Source, now: Timestamp)
    requires Valid(s)
    ensures var a := SyncProducts(s, src, now);
            var c := SyncProductsCorrected(s, src, now);
            && a.Success? == c.Success?
            && (a.Success? ==> a.value.0 == c.value.0 && a.value.1.errors == c.value.1.errors
                               && a.value.1.updated == c.value.1.created + c.value.1.updated)
  {
    if src.Reachable? {
      var page := FetchAllProducts(src).value;
      BothSyncsLoopOverPage(s, src, now, page);
      ClassificationOnlySplitsCounts(s, page, now, NoStats, NoStats);
      var a := SyncEntries(PostWriteLookup, s, page, now, NoStats);
      var c := SyncEntries(PreWriteLookup, s, page, now, NoStats);
      assert a.0 == c.0;
      assert a.1.created == 0;
      assert a.1.errors == c.1.errors;
      assert SyncProducts(s, src, now).value == a;
      assert SyncProductsCorrected(s, src, now).value == c;
    }
  }

  /** With a reachable source, both versions run the loop over the same fetched page. */
  lemma BothSyncsLoopOverPage(s: Store, src: Source, now: Timestamp, page: seq<RawEntry>)
    requires Valid(s) && src.Reachable? && page == FetchAllProducts(src).value
    ensures SyncProducts(s, src, now) == Success(SyncEntries(PostWriteLookup, s, page, now, NoStats))
    ensures SyncProductsCorrected(s, src, now) == Success(SyncEntries(PreWriteLookup, s, page, now, NoStats))
  {
    SyncRunsLoopOverFirstPage(PostWriteLookup, s, src, now);
    SyncRunsLoopOverFirstPage(PreWriteLookup, s, src, now);
  }

  lemma FirstEntryInserted(s: Store, e: RawEntry, now: Timestamp)
    requires Valid(s) && s.rows == map[] && HasRequiredFields(e) && FieldsFit(e)
    ensures UpsertProduct(s, e, now).Success?
    ensures |UpsertProduct(s, e, now).value.0.rows| == 1
    ensures FindExisting(s, e).None?
  {
    assert Insert(s, ToProductData(e, now), now).Success?;
    var (s1, p) := UpsertProduct(s, e, now).value;
    assert s1.rows == map[p.id := p];
  }

  lemma FirstEntryClassified(s: Store, e: RawEntry, now: Timestamp)
    requires Valid(s) && s.rows == map[] && HasRequiredFields(e) && FieldsFit(e)
    ensures UpsertProduct(s, e, now).Success?
    ensures var s1 := UpsertProduct(s, e, now).value.0;
      && |s1.rows| == 1
      && SyncEntry(PostWriteLookup, s, e, now, NoStats) == (s1, SyncStats(0, 1, 0))
      && SyncEntry(PreWriteLookup, s, e, now, NoStats) == (s1, SyncStats(1, 0, 0))
  {
    FirstEntryInserted(s, e, now);
    var (s1, p) := UpsertProduct(s, e, now).value;
    assert FindByContentfulId(s1, e.sys.id).Some? by {
      assert s1.rows[p.id].contentfulId == e.sys.id;
    }
  }

  /** The first sync of one complete entry into an empty table: the row is
      inserted, yet the service as written reports it as updated; the corrected
      classification reports it as created. */
  lemma FirstSyncOfNewEntryMiscounted(s: Store, e: RawEntry, now: Timestamp)
    requires Valid(s) && s.rows == map[] && HasRequiredFields(e) && FieldsFit(e)
    ensures SyncProducts(s, Reachable([e]), now).Success?
    ensures var (s', stats) := SyncProducts(s, Reachable([e]), now).value;
      |s'.rows| == 1 && stats == SyncStats(0, 1, 0)
    ensures SyncProductsCorrected(s, Reachable([e]), now).Success?
    ensures var (s', stats) := SyncProductsCorrected(s, Reachable([e]), now).value;
      |s'.rows| == 1 && stats == SyncStats(1, 0, 0)
  {
    FirstSyncAsWritten(s, e, now);
    FirstSyncCorrected(s, e, now);
  }

  lemma FirstSyncAsWritten(s: Store, e: RawEntry, now: Timestamp)
    requires Valid(s) && s.rows == map[] && HasRequiredFields(e) && FieldsFit(e)
    ensures SyncProducts(s, Reachable([e]), now).Success?
    ensures var (s', stats) := SyncProducts(s, Reachable([e]), now).value;
      |s'.rows| == 1 && stats == SyncStats(0, 1, 0)
  {
    var x := SyncEntry(PostWriteLookup, s, e, now, NoStats);
    assert SyncProducts(s, Reachable([e]), now) == Success(x) by {
      SyncSingleEntry(PostWriteLookup, s, e, now, NoStats);
      SyncOfSingleEntry(PostWriteLookup, s, e, now);
    }
    assert |x.0.rows| == 1 && x.1 == SyncStats(0, 1, 0) by {
      FirstEntryClassified(s, e, now);
    }
  }

  lemma FirstSyncCorrected(s: Store, e: RawEntry, now: Timestamp)
    requires Valid(s) && s.rows == map[] && HasRequiredFields(e) && FieldsFit(e)
    ensures SyncProductsCorrected(s, Reachable([e]), now).Success?
    ensures var (s', stats) := SyncProductsCorrected(s, Reachable([e]), now).value;
      |s'.rows| == 1 && stats == SyncStats(1, 0, 0)
  {
    var x := SyncEntry(PreWriteLookup, s, e, now, NoStats);
    assert SyncProductsCorrected(s, Reachable([e]), now) == Success(x) by {
      SyncSingleEntry(PreWriteLookup, s, e, now, NoStats);
      SyncOfSingleEntry(PreWriteLookup, s, e, now);
    }
    assert |x.0.rows| == 1 && x.1 == SyncStats(1, 0, 0) by {
      FirstEntryClassified(s, e, now);
    }
  }

  /** A run over a one-entry page is that entry's single loop iteration. */
  lemma SyncOfSingleEntry(how: Classification, s: Store, e: RawEntry, now: Timestamp)
    requires Valid(s)
    ensures Sync(how, s, Reachable([e]), now) == Success(SyncEntries(how, s, [e], now, NoStats))
  {
    assert [e][..Min(|[e]|, FetchLimit)] == [e];
    SyncRunsLoopOverFirstPage(how, s, Reachable([e]), now);
  }

  lemma SyncSingleEntry(how: Classification, s: Store, e: RawEntry, now: Timestamp, stats: SyncStats)
    requires Valid(s)
    ensures SyncEntries(how, s, [e], now, stats) == SyncEntry(how, s, e, now, stats)
  {
    var r := SyncEntry(how, s, e, now, stats);
    assert [e][1..] == [];
    assert SyncEntries(how, r.0, [], now, r.1) == r;
  }
}

=== FILE: text.dfy ===
/** The string operations the catalog queries rely on: SQL `LOWER`, JavaScript
    `toUpperCase`, the substring test behind `LIKE '%…%'` and the ordering of
    `ORDER BY` on a text column. Characters outside A–Z are left unchanged by the
    case mappings. */
module Text {

  function LowerChar(c: char): char {
    if 'A' <= c <= 'Z' then (c as int + 32) as char else c
  }

  function UpperChar(c: char): char {
    if 'a' <= c <= 'z' then (c as int - 32) as char else c
  }

  /** `LOWER(s)`: the same string with every upper-case letter lowered. */
  function Lower(s: string): (r: string)
    ensures |r| == |s|
    ensures forall i :: 0 <= i < |s| ==> r[i] == LowerChar(s[i])
  {
    if |s| == 0 then [] else [LowerChar(s[0])] + Lower(s[1..])
  }

  /** `s.toUpperCase()`: the same string with every lower-case letter raised. */
  function Upper(s: string): (r: string)
    ensures |r| == |s|
    ensures forall i :: 0 <= i < |s| ==> r[i] == UpperChar(s[i])
  {
    if |s| == 0 then [] else [UpperChar(s[0])] + Upper(s[1..])
  }

  /** Upper-casing twice changes nothing more than upper-casing once. */
  lemma UpperIdempotent(s: string)
    ensures Upper(Upper(s)) == Upper(s)
  {
  }

  /** `pat` occurs in `text` starting at position `i`. */
  ghost predicate OccursAt(text: string, pat: string, i: int) {
    0 <= i && i + |pat| <= |text| && text[i..i + |pat|] == pat
  }

  /** Substring test, as `text LIKE '%' || pat || '%'` for a pattern without wildcards. */
  function Contains(text: string, pat: string): (b: bool)
    ensures b <==> exists i :: OccursAt(text, pat, i)
    decreases |text|
  {
    if pat <= text then
      assert OccursAt(text, pat, 0);
      true
    else if |text| == 0 then
      false
    else
      var b := Contains(text[1..], pat);
      if b then
        assert exists i :: OccursAt(text, pat, i) by {
          var i :| OccursAt(text[1..], pat, i);
          assert text[i + 1..i + 1 + |pat|] == text[1..][i..i + |pat|];
          assert OccursAt(text, pat, i + 1);
        }
        true
      else
        assert forall i :: OccursAt(text, pat, i) ==> i >= 1 && OccursAt(text[1..], pat, i - 1) by {
          forall i | OccursAt(text, pat, i)
            ensures i >= 1 && OccursAt(text[1..], pat, i - 1)
          {
            if i > 0 {
              assert text[1..][i - 1..i - 1 + |pat|] == text[i..i + |pat|];
            }
          }
        }
        false
  }

  /** Lexicographic order on strings by character code; a prefix sorts first. */
  predicate LexLe(a: string, b: string)
    decreases |a|
  {
    |a| == 0 || (|b| > 0 && (a[0] < b[0] || (a[0] == b[0] && LexLe(a[1..], b[1..]))))
  }

  lemma {:induction false} LexLeTotal(a: string, b: string)
    ensures LexLe(a, b) || LexLe(b, a)
    decreases |a|
  {
    if |a| > 0 && |b| > 0 && a[0] == b[0] {
      LexLeTotal(a[1..], b[1..]);
    }
  }

  lemma {:induction false} LexLeTransitive(a: string, b: string, c: string)
    requires LexLe(a, b) && LexLe(b, c)
    ensures LexLe(a, c)
    decreases |a|
  {
    if |a| > 0 && a[0] == b[0] && b[0] == c[0] {
      LexLeTransitive(a[1..], b[1..], c[1..]);
    }
  }
}

=== FILE: wrappers.dfy ===
/** The two wrappers every module uses: `Option` stands for a value that may be
    `null` or `undefined`; `Result` for an operation that either returns a value
    or throws, and supports `:-` to pass the failure on. */
module Wrappers {

  datatype Option<+T> = None | Some(value: T) {

    /** The value, or `default` when there is none. */
    function GetOr(default: T): T {
      match this
      case Some(v) => v
      case None => default
    }
  }

  datatype Result<+R, +E> = Success(value: R) | Failure(error: E) {

    predicate IsFailure() {
      Failure?
    }

    function PropagateFailure<U>(): Result<U, E>
      requires Failure?
    {
      Failure(error)
    }

    function Extract(): R
      requires Success?
    {
      value
    }
  }
}
